=== FILE: README.md ===
# Anonymiser engine, modelled in Dafny

The anonymiser replaces personal data in JSON, XML and CSV documents. A
configuration names the fields to anonymise. Each rule carries a property
name and a consistency flag, and the first rule whose name matches a field
applies. Every matched value is handed to one value masker.

The masker keeps the length of the value and its character classes. Each
letter becomes a random lower-case ASCII letter, each digit a random digit,
and every other character is kept. All draws come from one seeded
pseudo-random stream. In consistent mode the masker remembers each value's
mask in a cache, so the same original always receives the same mask;
non-consistent calls bypass the cache. The facade holds one configuration and
one masker, and shares that masker between its JSON and XML walkers.

The project has one module per component:

- `Results`: `Option`, `Result` and the engine's error kinds, one per
  exception the model covers. Two exceptions have no kind: the
  `FormatException` that `GetDecimal` throws for a number outside `decimal`'s
  range (src/Anonymiser/Strategies/JsonAnonymisationStrategy.cs:76), which is
  listed under "Left out", and the `NotSupportedException` of the default
  branch (src/Anonymiser/Strategies/JsonAnonymisationStrategy.cs:86), which
  no parsed document reaches. `Parsed` is the outcome of the parser, which is
  outside the model.
- `Chars`: `char.IsLetter`, `char.IsDigit` and `char.IsWhiteSpace`;
  `string.Trim`; ordinal case-insensitive comparison.
- `Strings`: `String.Split` on a string separator, `RemoveEmptyEntries` and
  `String.Join`.
- `Config`: the configuration records and `List.Find` over the rules.
- `Masking`: the masker. Its state is an explicit value: the cache plus a
  draw stream and a position in it. `Run` applies a list of requests in order.
- `Json`, `Xml`, `Csv`: the three walkers. Each walker is specified three ways:
  - a relation between input and output that does not mention the masker's
    state: `Anonymised` for JSON and XML, `LinesAnonymised` and
    `RowsAnonymised` for CSV;
  - the exact list of masker requests it makes, in document order: `Calls`
    for JSON and XML, `CsvCalls` and `RowsCalls` for CSV;
  - a statement that the walker leaves the masker as `Run` of those requests
    would, and that its masked values are the masks `Run` returns.
- `Facade`: the `Anonymiser` class. Each call returns the facade's next state.
- `ParserResults`: `ParserResult<T>`.

Some behaviour of the code is easy to misread, and the model states it as the
code has it:

- Masks are drawn from the masker's shared `System.Random` stream. The comment
  at src/Anonymiser/Strategies/MaskingAnonymisationStrategy.cs:42-43 speaks of a
  hash of the input for consistent values, but the loop at lines 47-61 draws
  from `_random` in both modes; consistency comes only from the cache.
- JSON property names are matched case-sensitively. Only CSV headers are
  matched ignoring case, after trimming.
- An override configuration shares the facade's masker and cache. No
  isolated masker is made per call, and the override's seed is never read.
- `AnonymiseFileAsync` sends every file through the JSON walker whatever its
  extension. There is no unsupported-format error.
- A JSON object is rebuilt in a `Dictionary`, so a repeated key keeps its
  first position and its last value. Key order is the enumeration order only
  when the keys are distinct.

## Model

| member | source | states |
|---|---|---|
| `Masking.Next` | src/Anonymiser/Strategies/MaskingAnonymisationStrategy.cs:49-55 | A draw `Next(n)` lies in [0, n), consumes exactly one sample, and stays on the same seeded stream |
| `Masking.MaskChar` | src/Anonymiser/Strategies/MaskingAnonymisationStrategy.cs:49-60 | One character: a letter becomes a character in 'a'..'z', a digit one in '0'..'9', anything else is copied; one draw for a letter or digit, none otherwise |
| `Masking.Generate` | src/Anonymiser/Strategies/MaskingAnonymisationStrategy.cs:40-64 | GenerateMaskedValue returns a string of the input's length, preserves the class at every position, and consumes exactly one draw per letter or digit of the input |
| `Masking.DrawsBound` | src/Anonymiser/Strategies/MaskingAnonymisationStrategy.cs:47-61 | Masking a value draws at most its length, and draws nothing exactly when it has no letter and no digit |
| `Masking.NewMasker` | src/Anonymiser/Strategies/MaskingAnonymisationStrategy.cs:14-18 | A new masker has an empty cache and a draw stream at its start |
| `Masking.Anonymise` | src/Anonymiser/Strategies/MaskingAnonymisationStrategy.cs:20-38 | An empty value is returned as is and nothing is touched. A consistent cache hit returns the cached mask verbatim and changes nothing. A consistent miss stores value to mask and consumes the mask's draws. A non-consistent call neither reads nor writes the cache. The result is always a class-preserving mask, and the cache only grows, with non-empty keys mapped to masks of them |
| `Masking.NonConsistentIgnoresCache` | src/Anonymiser/Strategies/MaskingAnonymisationStrategy.cs:37 | A non-consistent mask depends on the draw stream alone: maskers that differ only in their caches give the same mask and the same next draw position |
| `Masking.Run` | src/Anonymiser/Strategies/MaskingAnonymisationStrategy.cs:20-38 | Over a sequence of requests the masker stays valid, returns one mask per request, never moves back in or leaves its stream, and never loses a cache entry |
| `Masking.RunMasks` | src/Anonymiser/Strategies/MaskingAnonymisationStrategy.cs:44-63 | Every mask a sequence of requests returns is a class-preserving mask of its request's value |
| `Masking.RunHonoursCache` | src/Anonymiser/Strategies/MaskingAnonymisationStrategy.cs:27-30 | A consistent request for a value cached before the sequence starts returns that cached mask, wherever it occurs in the sequence |
| `Masking.RunConsistentResults` | src/Anonymiser/Strategies/MaskingAnonymisationStrategy.cs:25-35 | After a sequence, every non-empty value requested consistently is cached, and each such request returned the cached mask, so identical originals in different consistent fields get identical masks |
| `Masking.ReplayConsistentRun` | test/Anonymiser.Tests/Strategies/CsvAnonymisationStrategyTests.cs:97-111 | Repeating an all-consistent sequence of requests on the state it left behind returns the same masks and changes nothing |
| `Masking.RepeatRunKeepsConsistentMasks` | test/Anonymiser.Tests/AnonymiserTests.cs:23-54 | Repeating any sequence of requests, consistent or not, on the state it left behind gives every consistent request the mask it got the first time |
| `Masking.AllCachedRunIsIdentity` | src/Anonymiser/Strategies/MaskingAnonymisationStrategy.cs:27-30 | Consistent requests whose values are all cached or empty leave the masker exactly as it was |
| `Chars.LetterDigitDisjoint` | src/Anonymiser/Strategies/MaskingAnonymisationStrategy.cs:49-56 | No character is both a letter and a digit, so the letter branch and the digit branch never compete |
| `Chars.Trim` | src/Anonymiser/Strategies/CsvAnonymisationStrategy.cs:51 | `string.Trim` never lengthens its input; that it cuts exactly the white space at both ends is stated by `Chars.TrimIsSlice` and `Chars.TrimEnds` |
| `Chars.TrimIsSlice` | src/Anonymiser/Strategies/CsvAnonymisationStrategy.cs:51 | Trim returns a contiguous slice of its input, and everything cut away on either side is white space |
| `Chars.TrimEnds` | src/Anonymiser/Strategies/CsvAnonymisationStrategy.cs:57 | A trimmed string neither starts nor ends with white space, and it is empty exactly when the input is blank |
| `Chars.EqualsIgnoreCaseIsEquivalence` | src/Anonymiser/Strategies/CsvAnonymisationStrategy.cs:52-53 | The ordinal case-insensitive header comparison is reflexive, symmetric and transitive |
| `Chars.EqualsIgnoreCase` | src/Anonymiser/Strategies/CsvAnonymisationStrategy.cs:52-53 | The ordinal case-insensitive comparison holds only between strings of equal length and always between equal strings; `Chars.EqualsIgnoreCaseIsEquivalence` proves it an equivalence |
| `Config.Find` | src/Anonymiser/Strategies/CsvAnonymisationStrategy.cs:52-53 | List.Find finds nothing exactly when no rule's name matches, and a rule it returns is in the list and matches |
| `Config.FindIsFirst` | src/Anonymiser/Strategies/JsonAnonymisationStrategy.cs:40-41 | The rule found is the first matching one: no rule before it matches |
| `Config.FindFirstWins` | src/Anonymiser/Strategies/XmlAnonymisationStrategy.cs:47-48 | Rules placed after the first match cannot change the outcome of a lookup |
| `Strings.RemoveEmpty` | src/Anonymiser/Strategies/CsvAnonymisationStrategy.cs:31 | RemoveEmptyEntries keeps exactly the non-empty pieces: none of the result is empty, and a piece is in the result if and only if it was a non-empty piece of the input, and a split with no empty piece is returned whole |
| `Strings.RemoveEmptyAppend` | src/Anonymiser/Strategies/CsvAnonymisationStrategy.cs:31 | Filtering distributes over concatenation, so the kept pieces stay in their order and each occurrence is kept once |
| `Strings.RemoveEmptySingle` | src/Anonymiser/Strategies/CsvAnonymisationStrategy.cs:31 | A single piece is dropped if it is empty and kept otherwise |
| `Strings.Split` | src/Anonymiser/Strategies/CsvAnonymisationStrategy.cs:37-42 | `String.Split` always returns at least one piece, and no piece contains the separator, whatever its length (`Strings.SplitAvoidsSeparator`). `Strings.JoinSplit` shows the pieces join back into the input, and `Strings.SplitJoin` that comma-free cells joined with commas split back into themselves |
| `Strings.SplitAvoidsSeparator` | src/Anonymiser/Strategies/CsvAnonymisationStrategy.cs:31 | For a separator of any length, including the two-character Windows line break, no piece of a split contains the separator |
| `Strings.Join` | src/Anonymiser/Strategies/CsvAnonymisationStrategy.cs:65-68 | `String.Join` puts one separator between consecutive parts and none at the ends: a non-empty list joins to the total length of its parts plus one separator per gap, starting with its first part. It is the inverse of splitting, as `Strings.JoinSplit` and `Strings.SplitJoin` state |
| `Strings.JoinSplit` | src/Anonymiser/Strategies/CsvAnonymisationStrategy.cs:42 | Joining the pieces of a split with the same separator gives back the original line |
| `Strings.SplitJoin` | src/Anonymiser/Strategies/CsvAnonymisationStrategy.cs:65 | Cells joined with a comma split back into the same cells when no cell contains a comma |
| `Csv.Lines` | src/Anonymiser/Strategies/CsvAnonymisationStrategy.cs:31 | The lines of the content split at the platform separator with empty entries removed: none is empty, none contains the separator, and there are no more of them than pieces of the split |
| `Csv.Cells` | src/Anonymiser/Strategies/CsvAnonymisationStrategy.cs:37-42 | The comma-split cells of a line: at least one, so every line has a header or a cell |
| `Csv.AnonymiseCell` | src/Anonymiser/Strategies/CsvAnonymisationStrategy.cs:51-62 | A cell under a configured header becomes a mask of the trimmed cell, made by the one request it issues; a cell under an unconfigured header is copied untrimmed with no request |
| `Csv.AnonymiseRow` | src/Anonymiser/Strategies/CsvAnonymisationStrategy.cs:48-63 | The inner loop returns as many cells as the header has, each anonymised as its column's header demands |
| `Csv.RowRuns` | src/Anonymiser/Strategies/CsvAnonymisationStrategy.cs:49-58 | The inner loop drives the masker with its configured cells in column order, and those cells hold exactly the masks returned |
| `Csv.FirstMisfit` | src/Anonymiser/Strategies/CsvAnonymisationStrategy.cs:40-46 | There is no misfit exactly when every data row has the header's cell count; a misfit found is the first row whose count differs |
| `Csv.AnonymiseRows` | src/Anonymiser/Strategies/CsvAnonymisationStrategy.cs:40-66 | The row loop leaves the masker valid; what it returns is stated by `Csv.RowsErrors` (when it fails), `Csv.RowsRuns` (how it drives the masker) and `Csv.RowsShape` (what it returns) |
| `Csv.RowsErrors` | src/Anonymiser/Strategies/CsvAnonymisationStrategy.cs:40-46 | The row loop fails exactly when some row's cell count differs from the header's, and the error reports the first such row |
| `Csv.RowsRuns` | src/Anonymiser/Strategies/CsvAnonymisationStrategy.cs:40-63 | The row loop drives the masker with the requests of the rows before the first misfit, in order, whether it then succeeds or fails |
| `Csv.RowsShape` | src/Anonymiser/Strategies/CsvAnonymisationStrategy.cs:40-66 | A row loop that succeeds returns one anonymised row per data line |
| `Csv.RowJoinSplits` | src/Anonymiser/Strategies/CsvAnonymisationStrategy.cs:65 | A row joined back with commas still splits into the header's number of cells, each anonymised as required: masking and trimming never introduce a comma, and splitting the joined row gives back exactly the cells joined |
| `Csv.AnonymiseCsv` | src/Anonymiser/Strategies/CsvAnonymisationStrategy.cs:24-69 | Content is refused as empty if and only if it is blank, and as lacking data rows if and only if it is not blank and has fewer than two non-empty lines. Content is accepted if and only if it is not blank, has at least two non-empty lines and every data row has the header's cell count. The masker ends as the document's requests leave it |
| `Csv.CsvRowErrors` | src/Anonymiser/Strategies/CsvAnonymisationStrategy.cs:40-46 | A document with a header and data rows fails with a column mismatch if and only if some data row misfits. The error names the first such row (one-based), its cell count and the header's |
| `Csv.CsvOutput` | src/Anonymiser/Strategies/CsvAnonymisationStrategy.cs:38-68 | An accepted document comes back as the header line verbatim followed by one anonymised row per data line, joined by the platform line separator with none trailing |
| `Csv.RowsMasksRun` | src/Anonymiser/Strategies/CsvAnonymisationStrategy.cs:40-63 | The configured cells of the rows a successful row loop returns, read row by row in column order, are exactly the masks that running the loop's requests returns |
| `Csv.CsvMasks` | src/Anonymiser/Strategies/CsvAnonymisationStrategy.cs:24-69 | An accepted document is the header line followed by anonymised rows whose configured cells, in document order, are exactly the masks that running the document's requests returns |
| `Csv.RowsDeterminedByMasks` | src/Anonymiser/Strategies/CsvAnonymisationStrategy.cs:48-63 | The rows are determined by the masks handed out: two maskers whose runs of the rows' requests return the same masks produce the same rows, or the same error |
| `Csv.RepeatWithConsistentRules` | test/Anonymiser.Tests/Strategies/CsvAnonymisationStrategyTests.cs:97-111 | With only consistent rules, anonymising the same document again on the masker the first pass left gives the same result and leaves the masker unchanged |
| `Csv.UnconfiguredRowUnchanged` | src/Anonymiser/Strategies/CsvAnonymisationStrategy.cs:59-65 | A row none of whose columns is configured is emitted exactly as read |
| `Csv.NoRulesKeepsLines` | src/Anonymiser/Strategies/CsvAnonymisationStrategy.cs:31-68 | With no rules the masker is never consulted, and an accepted document comes back as its non-empty lines joined by the line separator |
| `Json.Put` | src/Anonymiser/Strategies/JsonAnonymisationStrategy.cs:48-59 | Assigning through the dictionary indexer keeps keys distinct. An existing name keeps its position and takes the new value; a new name is appended at the end. The only members dropped are those with the new member's name |
| `Json.ToDictionary` | src/Anonymiser/Strategies/JsonAnonymisationStrategy.cs:37-62 | A rebuilt object has distinct keys and holds only members assigned to it; with distinct input keys it is the input, in order |
| `Json.ToDictionaryKeepsNames` | src/Anonymiser/Strategies/JsonAnonymisationStrategy.cs:37-61 | Every property name of the input object survives in the rebuilt object |
| `Json.ToDictionaryKeepsLast` | src/Anonymiser/Strategies/JsonAnonymisationStrategy.cs:37-61 | Under a repeated name the rebuilt object holds the value of the name's last occurrence |
| `Json.Walk` | src/Anonymiser/Strategies/JsonAnonymisationStrategy.cs:32-88 | The masker ends as running the walk's requests in depth-first document order leaves it, and the output's keys are distinct. When the input's keys are distinct, the output keeps the input's shape, masks exactly the matched string members, and carries the returned masks in order |
| `Json.WalkMembers` | src/Anonymiser/Strategies/JsonAnonymisationStrategy.cs:38-61 | The property loop keeps every name in order, returns values with distinct keys, and leaves the masker as running the members' requests in order does. When every member's value has distinct keys, a matched string value becomes its mask, any other value is walked as `Json.Anonymised` relates it, and the output carries the returned masks in order |
| `Json.WalkMember` | src/Anonymiser/Strategies/JsonAnonymisationStrategy.cs:40-60 | One property: its name is kept, its value gets distinct keys, and the masker advances by the member's requests. With distinct keys below it, a matched string value becomes its mask by the one request it makes, any other value is walked, and the output carries the returned masks |
| `Json.WalkItems` | src/Anonymiser/Strategies/JsonAnonymisationStrategy.cs:64-70 | Array elements are walked one by one in order, never matched directly, and the array keeps its length |
| `Json.AnonymiseJson` | src/Anonymiser/Strategies/JsonAnonymisationStrategy.cs:24-30 | Malformed text fails before the masker is touched; otherwise the call succeeds with distinct keys and the walk's masker. When the input's keys are distinct, the output is related to it by `Json.Anonymised` and carries the returned masks at its matched positions, in order |
| `Json.NothingMatchedIsIdentity` | src/Anonymiser/Strategies/JsonAnonymisationStrategy.cs:72-83 | A document in which the walk makes no request comes back unchanged: unmatched strings, numbers, booleans and null pass through |
| `Json.NoRulesNoCalls` | src/Anonymiser/Strategies/JsonAnonymisationStrategy.cs:40-43 | With no rules the walk makes no masker request |
| `Json.AnonymisedKeepsCallCount` | src/Anonymiser/Strategies/JsonAnonymisationStrategy.cs:38-60 | The output has a masked string at exactly as many positions as the input had matched strings |
| `Json.DeterminedByMasks` | src/Anonymiser/Strategies/JsonAnonymisationStrategy.cs:32-88 | An anonymised document is determined by the masks at its matched positions |
| `Json.ConsistentRulesConsistentCalls` | src/Anonymiser/Strategies/JsonAnonymisationStrategy.cs:48-50 | When every rule is consistent, every masker request of the walk is consistent |
| `Json.RepeatWithConsistentRules` | test/Anonymiser.Tests/AnonymiserTests.cs:23-46 | With only consistent rules, walking the same document again on the masker the first walk left returns the same document and masker, whether or not its keys are distinct |
| `Json.WalkFixed` | src/Anonymiser/Strategies/JsonAnonymisationStrategy.cs:32-88 | The walk is fixed by the masks it is handed: maskers whose runs of the document's requests return the same masks give the same output document, repeated keys included |
| `Json.RepeatKeepsConsistentValues` | test/Anonymiser.Tests/AnonymiserTests.cs:23-54 | With any mix of rules and distinct keys, walking the same document again on the masker the first walk left gives every masked position under a consistent rule the value the first walk gave it; positions under non-consistent rules are masked afresh |
| `Xml.Walk` | src/Anonymiser/Strategies/XmlAnonymisationStrategy.cs:44-74 | The masker ends as running the element's requests in document order leaves it. Names, attributes and child counts are kept, and the masked texts are exactly the masks returned |
| `Xml.MaskTexts` | src/Anonymiser/Strategies/XmlAnonymisationStrategy.cs:51-62 | In a matched element every direct text child becomes its mask and every other child, child elements included, is left as it is |
| `Xml.WalkChildren` | src/Anonymiser/Strategies/XmlAnonymisationStrategy.cs:63-73 | In an unmatched element the child elements are walked in document order and the element's own texts stay |
| `Xml.DocumentElement` | src/Anonymiser/Strategies/XmlAnonymisationStrategy.cs:30 | The root found is an element among the top-level nodes with no element before it; none is found exactly when there is no element |
| `Xml.AnonymiseXml` | src/Anonymiser/Strategies/XmlAnonymisationStrategy.cs:25-42 | Malformed text fails, and a document without a root element fails with no-root, both before the masker is touched. Otherwise only the root element changes, as the walk relates it, and its masked texts are the returned masks in order |
| `Xml.OnlyTextChanges` | src/Anonymiser/Strategies/XmlAnonymisationStrategy.cs:44-74 | Only text values change: element names, attributes, other node kinds and the nesting stay the same |
| `Xml.NothingMatchedIsIdentity` | src/Anonymiser/Strategies/XmlAnonymisationStrategy.cs:44-74 | An element in which the walk makes no request comes back unchanged |
| `Xml.MatchedElementKeepsChildElements` | src/Anonymiser/Strategies/XmlAnonymisationStrategy.cs:51-62 | A matched element's child elements are not entered: they come back identical even when their own names match a rule |
| `Xml.UnmatchedElementKeepsText` | src/Anonymiser/Strategies/XmlAnonymisationStrategy.cs:63-73 | An unmatched element's own text children are left alone |
| `Facade.Create` | src/Anonymiser/Anonymiser.cs:32-39 | A configuration is accepted if and only if one is given, and a missing one is refused with the null-configuration error; an accepted one is stored with a fresh masker on the stream of its seed |
| `Facade.UpdateConfiguration` | src/Anonymiser/Anonymiser.cs:41-44 | An update is accepted if and only if a configuration is given, and a missing one is refused with the null-configuration error; an accepted update replaces the stored configuration and keeps the masker, with its seed and cache |
| `Facade.RulesFor` | src/Anonymiser/Anonymiser.cs:46-56 | A call uses the override's rules when one is given and the stored configuration's otherwise |
| `Facade.AnonymiseJson` | src/Anonymiser/Anonymiser.cs:46-50 | A JSON call never changes the stored configuration or the draw stream, keeps every cache entry, and advances the masker as the JSON walk under the selected rules does. With distinct keys, the returned document is related to the input by `Json.Anonymised` and carries the returned masks in order |
| `Facade.AnonymiseXml` | src/Anonymiser/Anonymiser.cs:52-56 | An XML call does the same on the same masker, refusing malformed text and a missing root before the masker is touched. Otherwise every top-level node other than the root comes back unchanged, and the returned root is anonymised by the walk and carries the returned masks in order |
| `Facade.AnonymiseFile` | src/Anonymiser/Anonymiser.cs:58-62 | Whatever the file, malformed content is refused with a parse error and the facade unchanged; parsed content always succeeds, keeps the configuration, and leaves the masker as running the JSON requests of the selected rules does. With distinct keys, it is anonymised as the JSON walker relates it and carries the returned masks in order |
| `Facade.FileIgnoresPath` | src/Anonymiser/Anonymiser.cs:58-62 | The outcome does not depend on the file's path or extension |
| `Facade.OverrideSeedIgnored` | src/Anonymiser/Anonymiser.cs:36-56 | Two overrides with the same rules give the same results and next states whatever their seeds, so an override's seed never reaches the masker |
| `Facade.UpdateThenStoredRules` | src/Anonymiser/Anonymiser.cs:41-49 | After UpdateConfiguration(c), a call without an override behaves as a call with override c did before the update |
| `Facade.SharedCacheAcrossFormats` | src/Anonymiser/Anonymiser.cs:36-38 | A value masked by a JSON call in a consistent field gets the same mask when a later XML call meets it in a consistent element, whatever configurations the two calls use. For a JSON document with distinct keys, the JSON and XML documents returned carry the same masked value at those two positions |
| `Facade.RepeatJsonWithConsistentRules` | test/Anonymiser.Tests/AnonymiserTests.cs:23-46 | Repeating a JSON call whose selected rules are all consistent returns the same document, repeated keys included, and leaves the facade as the first call left it |
| `Facade.RepeatJsonKeepsConsistentFields` | test/Anonymiser.Tests/AnonymiserTests.cs:23-54 | For a document with distinct keys, repeating a JSON call with mixed consistent and non-consistent rules succeeds twice, and every masked field under a consistent rule has the same value in both results |
| `ParserResults.Success` | src/Anonymiser/Models/ParserResult.cs:18-21 | Success(d) is a success carrying d, with an empty (not missing) error message |
| `ParserResults.Failure` | src/Anonymiser/Models/ParserResult.cs:23-26 | Failure(m) is a failure carrying m, with no data |
| `ParserResults.MadeByFactory` | src/Anonymiser/Models/ParserResult.cs:11-26 | Every result is one of the two factories' products, and IsSuccess holds exactly for Success values |
| `ParserResults.FieldsExclusive` | src/Anonymiser/Models/ParserResult.cs:18-26 | A success has an empty error message and a failure has no data |

## Left out

- File and console I/O is not modelled: the path-based constructor, the file read in `AnonymiseFileAsync`, and the test runner program. `Facade.AnonymiseFile` takes the file's parsed content as a parameter.
- Parsing and serialising JSON and XML (`JsonDocument.Parse`, `JsonSerializer`, `XmlDocument.LoadXml`, `XmlTextWriter`) are not modelled. The walkers work on parsed trees, and a parse failure is the abstract `Malformed` outcome. The JSON and XML parser strategies, thin wrappers over those libraries, are left out for the same reason.
- JSON numbers are opaque leaves carrying their literal; the conversion through `GetDecimal` and its precision are not modelled.
- The `System.Random` algorithm, its floating-point scaling, and `seed.GetHashCode()` are not modelled. The draw stream of a seed is a parameter (`Facade.Seeding`). String hashing is randomised per process in .NET, so no cross-run determinism is claimed. `Masking.Next` scales an integer sample exactly, and ignores double rounding.
- `char.IsLetter` and `char.IsDigit` are exact on U+0000-U+00FF only. Characters above that range count as neither letter nor digit. The case-insensitive comparison folds ASCII letters only.
- `Environment.NewLine` is a `Platform` parameter (`"\n"` or `"\r\n"`).
- The `Task`/async wrappers are left out: every result is produced synchronously.
- Null strings are not modelled. A null value passed to the masker, a null string from `GetString` (impossible for a string element), and a null XML text value are all left out.
- `ParserResult.Data` on a failure is `default(T)`, modelled as `None`.
- Test assertions that a masked value differs from its original are left out: a mask may coincide with its original.
- The test expectation that an override configuration's seed changes the masks (test/Anonymiser.Tests/AnonymiserTests.cs:88-90) does not follow from the code, which never reads an override's seed; `Facade.OverrideSeedIgnored` states what the code does.
- The CSV walker is not reachable from the facade. `Csv.AnonymiseCsv` models the strategy on its own, with the masker passed in.
- Each walker's `Anonymise(value, isConsistent)` pass-through to the masker is not modelled separately; it is `Masking.Anonymise`.
- Json.Walk: the shape, masking and request-order clauses hold under the premise that every object in the input has distinct keys. With a repeated key the source's dictionary keeps one member, and `Json.ToDictionaryKeepsLast` describes which one.
- Config.Find: its contract does not say which matching rule is found; that it is the first one is `Config.FindIsFirst`.
- Json.AnonymiseJson: like Facade.AnonymiseJson, states the shape relation only under the same distinct-keys premise as `Json.Walk`.
- Json.AnonymiseJson: a number literal outside the range of `decimal` (for example `{"a": 1e400}`) makes `GetDecimal` (src/Anonymiser/Strategies/JsonAnonymisationStrategy.cs:76) throw a `FormatException`, after the walk may already have changed the masker's cache and stream. Numbers are opaque leaves here, so the model promises success for every parsed document; `Facade.AnonymiseJson` and `Facade.AnonymiseFile` inherit that promise.
- Json.WalkMembers: the per-member relation and the order of the returned masks hold under the premise that every member's value has distinct keys; the names, the distinct keys of the output and the masker's final state hold for every object.
- Facade.RepeatJsonKeepsConsistentFields: like `Json.RepeatKeepsConsistentValues`, it is stated only for documents whose objects have distinct keys. With a repeated key the source's dictionary collapses members, so the output's masked positions no longer line up with the input's requests; the all-consistent case, `Facade.RepeatJsonWithConsistentRules`, has no such premise.
- Json.RepeatKeepsConsistentValues: stated only for documents whose objects have distinct keys, for the reason given for `Facade.RepeatJsonKeepsConsistentFields`.
- Json.RepeatWithConsistentRules: the test's assertions that non-consistent fields come out different on the second call are probabilistic and are not modelled; `Json.RepeatKeepsConsistentValues` and `Facade.RepeatJsonKeepsConsistentFields` state the equality for consistent fields under mixed rules.

=== FILE: anonymiser.dfy ===
/** The Anonymiser facade: a stored configuration plus one masker, shared by
    the JSON and the XML walker for the facade's whole lifetime. Each call
    returns the facade's next state alongside its result. */
module Facade {
  import opened Results
  import opened Config
  import opened Masking
  import Json
  import Xml

  /** How a seed string becomes a draw stream (seed.GetHashCode() fed to
      System.Random); both are outside the model. */
  type Seeding = string -> Stream

  datatype Anonymiser = Anonymiser(config: AnonymisationConfig, masker: Masker)

  /** The configuration-object constructor. A missing (null) configuration is
      refused; otherwise the masker starts with an empty cache and the stream
      of the configuration's seed. */
  function Create(config: Option<AnonymisationConfig>, seeding: Seeding): (r: Result<Anonymiser>)
    ensures config.None? <==> r == Err(ConfigNull)
    ensures config.Some? <==> r.Ok?
    ensures r.Ok? ==>
              && r.value.config == config.value
              && Valid(r.value.masker)
              && r.value.masker.cache == map[]
              && r.value.masker.rng == Rng(seeding(config.value.anonymiseSeed), 0)
  {
    match config
    case None => Err(ConfigNull)
    case Some(c) => Ok(Anonymiser(c, NewMasker(seeding(c.anonymiseSeed))))
  }

  /** UpdateConfiguration. A missing configuration is refused (the facade the
      caller holds stays as it was); otherwise the stored configuration is
      replaced and the masker, with its seed and cache, is kept. */
  function UpdateConfiguration(a: Anonymiser, newConfig: Option<AnonymisationConfig>): (r: Result<Anonymiser>)
    ensures newConfig.None? <==> r == Err(ConfigNull)
    ensures newConfig.Some? <==> r.Ok?
    ensures r.Ok? ==> r.value.config == newConfig.value && r.value.masker == a.masker
  {
    match newConfig
    case None => Err(ConfigNull)
    case Some(c) => Ok(Anonymiser(c, a.masker))
  }

  /** The rule list a call uses: the override's when one is given, the stored
      configuration's otherwise. Nothing else of the override is read. */
  function RulesFor(a: Anonymiser, overrideConfig: Option<AnonymisationConfig>): (rules: seq<Rule>)
    ensures overrideConfig.Some? ==> rules == overrideConfig.value.propertiesToAnonymise
    ensures overrideConfig.None? ==> rules == a.config.propertiesToAnonymise
  {
    match overrideConfig
    case Some(c) => c.propertiesToAnonymise
    case None => a.config.propertiesToAnonymise
  }

  /** The configuration a call hands to the walker. */
  function ConfigToUse(a: Anonymiser, overrideConfig: Option<AnonymisationConfig>): AnonymisationConfig {
    match overrideConfig
    case Some(c) => c
    case None => a.config
  }

  /** AnonymiseJsonAsync. The stored configuration and the draw stream are
      never changed by a call; the masker advances exactly as the JSON walker
      drives it under the selected rules. */
  function AnonymiseJson(a: Anonymiser, content: Parsed<Json.Value>, overrideConfig: Option<AnonymisationConfig>): (r: (Result<Json.Value>, Anonymiser))
    requires Valid(a.masker)
    ensures Valid(r.1.masker)
    ensures r.1.config == a.config
    ensures r.1.masker.rng.stream == a.masker.rng.stream
    ensures CacheExtends(a.masker.cache, r.1.masker.cache)
    ensures content.Malformed? ==> r.0 == Err(ParseError) && r.1 == a
    ensures content.Parsed? ==>
              && r.0.Ok?
              && r.1.masker == Run(a.masker, Json.Calls(RulesFor(a, overrideConfig), content.doc)).1
    ensures content.Parsed? && Json.UniqueKeys(content.doc) ==>
              var rules := RulesFor(a, overrideConfig);
              && Json.Anonymised(rules, content.doc, r.0.value)
              && Json.Calls(rules, r.0.value) == WithValues(Json.Calls(rules, content.doc), Run(a.masker, Json.Calls(rules, content.doc)).0)
  {
    var (res, m) := Json.AnonymiseJson(content, ConfigToUse(a, overrideConfig), a.masker);
    (res, Anonymiser(a.config, m))
  }

  /** AnonymiseXmlAsync, with the same masker as the JSON path. */
  function AnonymiseXml(a: Anonymiser, content: Parsed<Xml.Document>, overrideConfig: Option<AnonymisationConfig>): (r: (Result<Xml.Document>, Anonymiser))
    requires Valid(a.masker)
    ensures Valid(r.1.masker)
    ensures r.1.config == a.config
    ensures r.1.masker.rng.stream == a.masker.rng.stream
    ensures CacheExtends(a.masker.cache, r.1.masker.cache)
    ensures content.Malformed? ==> r.0 == Err(ParseError) && r.1 == a
    ensures content.Parsed? && Xml.DocumentElement(content.doc.nodes).None? ==> r.0 == Err(XmlNoRoot) && r.1 == a
    ensures content.Parsed? && Xml.DocumentElement(content.doc.nodes).Some? ==>
              var root := content.doc.nodes[Xml.DocumentElement(content.doc.nodes).value];
              && r.0.Ok?
              && r.1.masker == Run(a.masker, Xml.Calls(RulesFor(a, overrideConfig), root)).1
              && |r.0.value.nodes| == |content.doc.nodes|
              && (forall j :: 0 <= j < |content.doc.nodes| && j != Xml.DocumentElement(content.doc.nodes).value ==>
                    r.0.value.nodes[j] == content.doc.nodes[j])
              && Xml.Anonymised(RulesFor(a, overrideConfig), root, r.0.value.nodes[Xml.DocumentElement(content.doc.nodes).value])
              && Xml.Calls(RulesFor(a, overrideConfig), r.0.value.nodes[Xml.DocumentElement(content.doc.nodes).value])
                 == WithValues(Xml.Calls(RulesFor(a, overrideConfig), root), Run(a.masker, Xml.Calls(RulesFor(a, overrideConfig), root)).0)
  {
    var (res, m) := Xml.AnonymiseXml(content, ConfigToUse(a, overrideConfig), a.masker);
    (res, Anonymiser(a.config, m))
  }

  /** AnonymiseFileAsync: the file's text goes through the JSON walker
      whatever the file's name or extension: malformed JSON is refused, and
      well-formed content is walked under the selected rules on the shared
      masker. Reading the file is outside the model. */
  function AnonymiseFile(a: Anonymiser, path: string, content: Parsed<Json.Value>, overrideConfig: Option<AnonymisationConfig>): (r: (Result<Json.Value>, Anonymiser))
    requires Valid(a.masker)
    ensures Valid(r.1.masker)
    ensures r.1.config == a.config
    ensures content.Malformed? ==> r.0 == Err(ParseError) && r.1 == a
    ensures content.Parsed? ==>
              && r.0.Ok?
              && r.1.masker == Run(a.masker, Json.Calls(RulesFor(a, overrideConfig), content.doc)).1
    ensures content.Parsed? && Json.UniqueKeys(content.doc) ==>
              var rules := RulesFor(a, overrideConfig);
              && Json.Anonymised(rules, content.doc, r.0.value)
              && Json.Calls(rules, r.0.value) == WithValues(Json.Calls(rules, content.doc), Run(a.masker, Json.Calls(rules, content.doc)).0)
  {
    AnonymiseJson(a, content, overrideConfig)
  }

  // ---------------------------------------------------------------------------
  // Properties

  /** Only an override's rule list matters: two overrides with the same rules
      (whatever their seeds or data locations) give the same result and the
      same next state. In particular an override's seed never reaches the
      masker. */
  lemma {:induction false} OverrideSeedIgnored(a: Anonymiser, json: Parsed<Json.Value>, xml: Parsed<Xml.Document>, o1: AnonymisationConfig, o2: AnonymisationConfig)
    requires Valid(a.masker)
    requires o1.propertiesToAnonymise == o2.propertiesToAnonymise
    ensures AnonymiseJson(a, json, Some(o1)) == AnonymiseJson(a, json, Some(o2))
    ensures AnonymiseXml(a, xml, Some(o1)) == AnonymiseXml(a, xml, Some(o2))
  {
    assert ConfigToUse(a, Some(o1)).propertiesToAnonymise == ConfigToUse(a, Some(o2)).propertiesToAnonymise;
  }

  /** After UpdateConfiguration(c), a call without an override behaves as the
      old facade did when given c as its override. */
  lemma {:induction false} UpdateThenStoredRules(a: Anonymiser, c: AnonymisationConfig, json: Parsed<Json.Value>, xml: Parsed<Xml.Document>)
    requires Valid(a.masker)
    ensures UpdateConfiguration(a, Some(c)).Ok?
    ensures var b := UpdateConfiguration(a, Some(c)).value;
            && AnonymiseJson(b, json, None).0 == AnonymiseJson(a, json, Some(c)).0
            && AnonymiseJson(b, json, None).1.masker == AnonymiseJson(a, json, Some(c)).1.masker
            && AnonymiseXml(b, xml, None).0 == AnonymiseXml(a, xml, Some(c)).0
            && AnonymiseXml(b, xml, None).1.masker == AnonymiseXml(a, xml, Some(c)).1.masker
  {
  }

  /** One cache across formats: a value that a JSON call masked in a
      consistent field gets the very same mask when a later XML call meets it
      in a consistent element, whichever configurations the two calls use; so,
      for a JSON document with distinct keys, the two returned documents carry
      the same masked value at those positions. */
  lemma {:induction false} SharedCacheAcrossFormats(a: Anonymiser, jdoc: Json.Value, xdoc: Xml.Document, jo: Option<AnonymisationConfig>, xo: Option<AnonymisationConfig>)
    requires Valid(a.masker) && Xml.DocumentElement(xdoc.nodes).Some?
    ensures var a1 := AnonymiseJson(a, Parsed(jdoc), jo).1;
            var jc := Json.Calls(RulesFor(a, jo), jdoc);
            var xc := Xml.Calls(RulesFor(a1, xo), xdoc.nodes[Xml.DocumentElement(xdoc.nodes).value]);
            forall i, j :: 0 <= i < |jc| && 0 <= j < |xc| && jc[i].consistent && xc[j].consistent && jc[i].value == xc[j].value ==>
              Run(a.masker, jc).0[i] == Run(a1.masker, xc).0[j]
    ensures var (jout, a1) := AnonymiseJson(a, Parsed(jdoc), jo);
            var xout := AnonymiseXml(a1, Parsed(xdoc), xo).0;
            var root := Xml.DocumentElement(xdoc.nodes).value;
            var jc := Json.Calls(RulesFor(a, jo), jdoc);
            var xc := Xml.Calls(RulesFor(a1, xo), xdoc.nodes[root]);
            Json.UniqueKeys(jdoc) ==>
              && jout.Ok? && xout.Ok?
              && |Json.Calls(RulesFor(a, jo), jout.value)| == |jc|
              && |Xml.Calls(RulesFor(a1, xo), xout.value.nodes[root])| == |xc|
              && forall i, j :: 0 <= i < |jc| && 0 <= j < |xc| && jc[i].consistent && xc[j].consistent && jc[i].value == xc[j].value ==>
                   Json.Calls(RulesFor(a, jo), jout.value)[i].value == Xml.Calls(RulesFor(a1, xo), xout.value.nodes[root])[j].value
  {
    var a1 := AnonymiseJson(a, Parsed(jdoc), jo).1;
    var jc := Json.Calls(RulesFor(a, jo), jdoc);
    var xc := Xml.Calls(RulesFor(a1, xo), xdoc.nodes[Xml.DocumentElement(xdoc.nodes).value]);
    var jr, xr := Run(a.masker, jc), Run(a1.masker, xc);
    assert a1.masker == jr.1;
    RunConsistentResults(a.masker, jc);
    RunHonoursCache(a1.masker, xc);
    RunMasks(a.masker, jc);
    RunMasks(a1.masker, xc);
    forall i, j | 0 <= i < |jc| && 0 <= j < |xc| && jc[i].consistent && xc[j].consistent && jc[i].value == xc[j].value
      ensures jr.0[i] == xr.0[j]
    {
      if jc[i].value == [] {
        assert |jr.0[i]| == 0 && |xr.0[j]| == 0;
      }
    }
  }

  /** Repeating a JSON call whose selected rules are all consistent returns
      the same document and leaves the facade as the first call left it. */
  lemma {:induction false} RepeatJsonWithConsistentRules(a: Anonymiser, doc: Json.Value, overrideConfig: Option<AnonymisationConfig>)
    requires Valid(a.masker)
    requires forall i :: 0 <= i < |RulesFor(a, overrideConfig)| ==> RulesFor(a, overrideConfig)[i].isConsistent
    ensures var first := AnonymiseJson(a, Parsed(doc), overrideConfig);
            AnonymiseJson(first.1, Parsed(doc), overrideConfig) == first
  {
    Json.RepeatWithConsistentRules(RulesFor(a, overrideConfig), doc, a.masker);
  }

  /** Mixed rules: repeating a JSON call returns, at every masked position
      whose selected rule is consistent, the value the first call returned
      there; values under non-consistent rules are masked afresh. */
  lemma {:induction false} RepeatJsonKeepsConsistentFields(a: Anonymiser, doc: Json.Value, overrideConfig: Option<AnonymisationConfig>)
    requires Valid(a.masker) && Json.UniqueKeys(doc)
    ensures var first := AnonymiseJson(a, Parsed(doc), overrideConfig);
            var second := AnonymiseJson(first.1, Parsed(doc), overrideConfig);
            var rules := RulesFor(a, overrideConfig);
            var c := Json.Calls(rules, doc);
            && first.0.Ok? && second.0.Ok?
            && |Json.Calls(rules, first.0.value)| == |c|
            && |Json.Calls(rules, second.0.value)| == |c|
            && forall i :: 0 <= i < |c| && c[i].consistent ==>
                 Json.Calls(rules, second.0.value)[i] == Json.Calls(rules, first.0.value)[i]
  {
    Json.RepeatKeepsConsistentValues(RulesFor(a, overrideConfig), doc, a.masker);
  }

  /** A file is anonymised as JSON whatever its path says. */
  lemma {:induction false} FileIgnoresPath(a: Anonymiser, p1: string, p2: string, content: Parsed<Json.Value>, overrideConfig: Option<AnonymisationConfig>)
    requires Valid(a.masker)
    ensures AnonymiseFile(a, p1, content, overrideConfig) == AnonymiseFile(a, p2, content, overrideConfig)
  {
  }
}

=== FILE: chars.dfy ===
/** Character classification used by the masker and the CSV walker: the parts of
    .NET's char.IsLetter, char.IsDigit, char.IsWhiteSpace and ordinal
    case-insensitive comparison that the engine depends on. */
module Chars {

  /** char.IsLetter on the Latin-1 range; code points above U+00FF count as
      non-letters in this model. */
  predicate IsLetter(c: char) {
    || 'A' <= c <= 'Z'
    || 'a' <= c <= 'z'
    || c == '\U{AA}' || c == '\U{B5}' || c == '\U{BA}'
    || '\U{C0}' <= c <= '\U{D6}'
    || '\U{D8}' <= c <= '\U{F6}'
    || '\U{F8}' <= c <= '\U{FF}'
  }

  /** char.IsDigit on the Latin-1 range, where the only decimal digits are 0-9. */
  predicate IsDigit(c: char) {
    '0' <= c <= '9'
  }

  /** char.IsWhiteSpace: the Unicode space separators, the line and paragraph
      separators, and the control characters U+0009-U+000D and U+0085. */
  predicate IsWhiteSpace(c: char) {
    || '\U{9}' <= c <= '\U{D}'
    || c == ' ' || c == '\U{85}' || c == '\U{A0}' || c == '\U{1680}'
    || '\U{2000}' <= c <= '\U{200A}'
    || c == '\U{2028}' || c == '\U{2029}' || c == '\U{202F}' || c == '\U{205F}' || c == '\U{3000}'
  }

  lemma LetterDigitDisjoint(c: char)
    ensures !(IsLetter(c) && IsDigit(c))
  {
  }

  /** string.IsNullOrWhiteSpace for a non-null string. */
  predicate IsBlank(s: string) {
    forall i :: 0 <= i < |s| ==> IsWhiteSpace(s[i])
  }

  /** Length of the longest whitespace prefix of s. */
  function LeadingWhiteSpace(s: string): (n: nat)
    ensures n <= |s|
    ensures forall i :: 0 <= i < n ==> IsWhiteSpace(s[i])
    ensures n < |s| ==> !IsWhiteSpace(s[n])
  {
    if s == [] || !IsWhiteSpace(s[0]) then 0 else 1 + LeadingWhiteSpace(s[1..])
  }

  /** Length of the longest whitespace suffix of s. */
  function TrailingWhiteSpace(s: string): (n: nat)
    ensures n <= |s|
    ensures forall i :: |s| - n <= i < |s| ==> IsWhiteSpace(s[i])
    ensures n < |s| ==> !IsWhiteSpace(s[|s| - n - 1])
  {
    if s == [] || !IsWhiteSpace(s[|s| - 1]) then 0 else 1 + TrailingWhiteSpace(s[..|s| - 1])
  }

  /** string.TrimStart(): s without its leading white space. */
  function TrimStart(s: string): (t: string)
    ensures |t| <= |s|
  {
    if s != [] && IsWhiteSpace(s[0]) then TrimStart(s[1..]) else s
  }

  /** string.TrimEnd(): s without its trailing white space. */
  function TrimEnd(s: string): (t: string)
    ensures |t| <= |s|
  {
    if s != [] && IsWhiteSpace(s[|s| - 1]) then TrimEnd(s[..|s| - 1]) else s
  }

  /** string.Trim(): s without its leading and trailing white space. What the
      result is made of is TrimIsSlice and TrimEnds. */
  function Trim(s: string): (t: string)
    ensures |t| <= |s|
  {
    TrimEnd(TrimStart(s))
  }

  /** TrimStart drops exactly the longest white-space prefix. */
  lemma {:induction false} TrimStartDrops(s: string)
    ensures TrimStart(s) == s[LeadingWhiteSpace(s)..]
  {
    if s != [] && IsWhiteSpace(s[0]) {
      TrimStartDrops(s[1..]);
      assert s[1..][LeadingWhiteSpace(s[1..])..] == s[LeadingWhiteSpace(s)..];
    }
  }

  /** TrimEnd drops exactly the longest white-space suffix. */
  lemma {:induction false} TrimEndDrops(s: string)
    ensures TrimEnd(s) == s[..|s| - TrailingWhiteSpace(s)]
  {
    if s != [] && IsWhiteSpace(s[|s| - 1]) {
      TrimEndDrops(s[..|s| - 1]);
      assert s[..|s| - 1][..|s| - 1 - TrailingWhiteSpace(s[..|s| - 1])] == s[..|s| - TrailingWhiteSpace(s)];
    }
  }

  /** Where Trim cuts s: at a, past its white-space prefix, and at b, before
      its white-space suffix; the kept slice starts and ends with a
      non-white-space character unless s is all white space. */
  lemma {:induction false} TrimBounds(s: string) returns (a: nat, b: nat)
    ensures a <= b <= |s| && Trim(s) == s[a..b]
    ensures forall i :: 0 <= i < a ==> IsWhiteSpace(s[i])
    ensures forall i :: b <= i < |s| ==> IsWhiteSpace(s[i])
    ensures a == |s| ==> b == a
    ensures a < |s| ==> a < b && !IsWhiteSpace(s[a]) && !IsWhiteSpace(s[b - 1])
  {
    a := LeadingWhiteSpace(s);
    TrimStartDrops(s);
    var u := s[a..];
    TrimEndDrops(u);
    var n := TrailingWhiteSpace(u);
    b := a + |u| - n;
    SuffixWhiteSpace(s, a, n);
    if a < |s| {
      assert u[0] == s[a];
      assert u[|u| - n - 1] == s[b - 1];
    }
  }

  /** White space ending a suffix of s ends s. */
  lemma {:induction false} SuffixWhiteSpace(s: string, a: nat, n: nat)
    requires a <= |s| && n <= |s| - a
    requires forall i :: |s| - a - n <= i < |s| - a ==> IsWhiteSpace(s[a..][i])
    ensures forall i :: |s| - n <= i < |s| ==> IsWhiteSpace(s[i])
  {
    forall i | |s| - n <= i < |s|
      ensures IsWhiteSpace(s[i])
    {
      assert s[i] == s[a..][i - a];
    }
  }

  /** Trim only cuts: its result is a contiguous slice of s, and everything
      cut away on either side is white space. */
  lemma {:induction false} TrimIsSlice(s: string)
    ensures exists a, b :: 0 <= a <= b <= |s| && Trim(s) == s[a..b]
                           && (forall i :: 0 <= i < a ==> IsWhiteSpace(s[i]))
                           && (forall i :: b <= i < |s| ==> IsWhiteSpace(s[i]))
  {
    var a, b := TrimBounds(s);
  }

  /** The result of Trim neither starts nor ends with white space, and it is
      empty exactly when s is blank. */
  lemma {:induction false} TrimEnds(s: string)
    ensures Trim(s) != [] ==> !IsWhiteSpace(Trim(s)[0]) && !IsWhiteSpace(Trim(s)[|Trim(s)| - 1])
    ensures Trim(s) == [] <==> IsBlank(s)
  {
    var a, b := TrimBounds(s);
    if a < |s| {
      assert Trim(s)[0] == s[a] && Trim(s)[|Trim(s)| - 1] == s[b - 1];
    }
  }

  /** The ordinal case-insensitive comparison folds ASCII letters to upper case. */
  function ToUpper(c: char): (d: char)
    ensures 'a' <= c <= 'z' ==> 'A' <= d <= 'Z'
    ensures !('a' <= c <= 'z') ==> d == c
  {
    if 'a' <= c <= 'z' then (c as int - 32) as char else c
  }

  /** string.Equals(a, b, StringComparison.OrdinalIgnoreCase). */
  predicate EqualsIgnoreCase(a: string, b: string)
    ensures EqualsIgnoreCase(a, b) ==> |a| == |b|
    ensures a == b ==> EqualsIgnoreCase(a, b)
  {
    |a| == |b| && forall i :: 0 <= i < |a| ==> ToUpper(a[i]) == ToUpper(b[i])
  }

  lemma EqualsIgnoreCaseIsEquivalence(a: string, b: string, c: string)
    ensures EqualsIgnoreCase(a, a)
    ensures EqualsIgnoreCase(a, b) ==> EqualsIgnoreCase(b, a)
    ensures EqualsIgnoreCase(a, b) && EqualsIgnoreCase(b, c) ==> EqualsIgnoreCase(a, c)
  {
  }
}

=== FILE: config.dfy ===
/** The configuration record handed to the engine and the first-match rule
    lookup (List.Find) every walker performs on it. */
module Config {
  import opened Results
  import opened Chars

  /** One entry of PropertiesToAnonymise. The anonymisation type is carried but
      never inspected: every matched value is masked. */
  datatype Rule = Rule(propertyName: string, anonymisationType: string, isConsistent: bool)

  datatype AnonymisationConfig = AnonymisationConfig(
    dataLocation: string,
    anonymiseSeed: string,
    propertiesToAnonymise: seq<Rule>)

  /** How a walker compares a rule's property name with a field name: JSON keys
      and XML element names compare ordinally, CSV headers ignoring case. */
  datatype Discipline = Ordinal | OrdinalIgnoreCase

  predicate NameMatches(d: Discipline, propertyName: string, fieldName: string) {
    match d
    case Ordinal => propertyName == fieldName
    case OrdinalIgnoreCase => EqualsIgnoreCase(propertyName, fieldName)
  }

  /** List.Find: a matching rule, or None exactly when no rule matches (that
      the rule found is the first match is FindIsFirst). */
  function Find(rules: seq<Rule>, d: Discipline, fieldName: string): (r: Option<Rule>)
    ensures r.None? <==> forall i :: 0 <= i < |rules| ==> !NameMatches(d, rules[i].propertyName, fieldName)
    ensures r.Some? ==> r.value in rules && NameMatches(d, r.value.propertyName, fieldName)
  {
    if rules == [] then None
    else if NameMatches(d, rules[0].propertyName, fieldName) then Some(rules[0])
    else
      var r := Find(rules[1..], d, fieldName);
      assert forall i :: 1 <= i < |rules| ==> rules[i] == rules[1..][i - 1];
      r
  }

  /** The rule Find returns is the first matching one: it sits at a position
      before which no rule matches. */
  lemma {:induction false} FindIsFirst(rules: seq<Rule>, d: Discipline, fieldName: string)
    requires Find(rules, d, fieldName).Some?
    ensures exists i :: 0 <= i < |rules| && rules[i] == Find(rules, d, fieldName).value
                        && forall j :: 0 <= j < i ==> !NameMatches(d, rules[j].propertyName, fieldName)
  {
    if !NameMatches(d, rules[0].propertyName, fieldName) {
      FindIsFirst(rules[1..], d, fieldName);
      var i :| 0 <= i < |rules[1..]| && rules[1..][i] == Find(rules[1..], d, fieldName).value
               && forall j :: 0 <= j < i ==> !NameMatches(d, rules[1..][j].propertyName, fieldName);
      assert rules[i + 1] == Find(rules, d, fieldName).value;
      forall j | 0 <= j < i + 1
        ensures !NameMatches(d, rules[j].propertyName, fieldName)
      {
        if j > 0 {
          assert rules[j] == rules[1..][j - 1];
        }
      }
    } else {
      assert rules[0] == Find(rules, d, fieldName).value;
    }
  }

  /** Only the first matching rule matters: rules placed after it cannot change
      the outcome of a lookup. */
  lemma {:induction false} FindFirstWins(rules: seq<Rule>, more: seq<Rule>, d: Discipline, fieldName: string)
    requires Find(rules, d, fieldName).Some?
    ensures Find(rules + more, d, fieldName) == Find(rules, d, fieldName)
  {
    if NameMatches(d, rules[0].propertyName, fieldName) {
    } else {
      assert (rules + more)[1..] == rules[1..] + more;
      FindFirstWins(rules[1..], more, d, fieldName);
    }
  }
}

=== FILE: csv.dfy ===
/** The CSV walker (CsvAnonymisationStrategy.AnonymiseCsvAsync): plain
    splitting on the platform line separator and on commas, no quoting. */
module Csv {
  import opened Results
  import opened Chars
  import opened Config
  import opened Masking
  import opened Strings

  /** Environment.NewLine, the only platform value the walker reads. */
  datatype Platform = Unix | Windows

  function NewLine(p: Platform): (nl: string)
    ensures |nl| > 0
  {
    match p
    case Unix => "\n"
    case Windows => "\r\n"
  }

  const Comma: string := [',']

  /** The non-empty lines of the content. */
  function Lines(content: string, p: Platform): (r: seq<string>)
    ensures forall i :: 0 <= i < |r| ==> r[i] != [] && !Contains(r[i], NewLine(p))
    ensures |r| <= |Split(content, NewLine(p))|
  {
    SplitAvoidsSeparator(content, NewLine(p));
    RemoveEmpty(Split(content, NewLine(p)))
  }

  /** The comma-separated cells of one line. */
  function Cells(line: string): (r: seq<string>)
    ensures |r| >= 1
  {
    Split(line, Comma)
  }

  /** Headers are trimmed and compared ignoring case; the first matching rule
      wins. */
  function HeaderRule(rules: seq<Rule>, header: string): Option<Rule> {
    Find(rules, OrdinalIgnoreCase, Trim(header))
  }

  // ---------------------------------------------------------------------------
  // One data row

  /** out is what the walker must put in a cell under header: the mask of the
      trimmed cell when the header is configured, the untrimmed cell otherwise. */
  predicate CellAnonymised(rules: seq<Rule>, header: string, cell: string, out: string) {
    if HeaderRule(rules, header).Some? then Masks(Trim(cell), out) else out == cell
  }

  /** outs is cells anonymised column by column under headers. */
  predicate CellsAnonymised(rules: seq<Rule>, headers: seq<string>, cells: seq<string>, outs: seq<string>) {
    && |cells| == |headers|
    && |outs| == |headers|
    && forall j {:trigger CellAnonymised(rules, headers[j], cells[j], outs[j])} ::
         0 <= j < |headers| ==> CellAnonymised(rules, headers[j], cells[j], outs[j])
  }

  /** Anonymised cells copy every cell whose header no rule configures. */
  lemma {:induction false} CellsCopied(rules: seq<Rule>, headers: seq<string>, cells: seq<string>, outs: seq<string>)
    requires CellsAnonymised(rules, headers, cells, outs)
    ensures forall j :: 0 <= j < |cells| && HeaderRule(rules, headers[j]).None? ==> outs[j] == cells[j]
  {
    forall j | 0 <= j < |cells| && HeaderRule(rules, headers[j]).None?
      ensures outs[j] == cells[j]
    {
      assert CellAnonymised(rules, headers[j], cells[j], outs[j]);
    }
  }

  /** The masker request one cell makes: none when its column is not configured. */
  function CellCalls(rules: seq<Rule>, header: string, cell: string): seq<Call> {
    match HeaderRule(rules, header)
    case Some(rule) => [Call(Trim(cell), rule.isConsistent)]
    case None => []
  }

  /** The masker requests one row makes, column by column. */
  function RowCalls(rules: seq<Rule>, headers: seq<string>, cells: seq<string>): seq<Call>
    requires |cells| == |headers|
  {
    if cells == [] then []
    else CellCalls(rules, headers[0], cells[0]) + RowCalls(rules, headers[1..], cells[1..])
  }

  /** The output cell when its column is configured. */
  function CellMasks(rules: seq<Rule>, header: string, out: string): seq<string> {
    if HeaderRule(rules, header).Some? then [out] else []
  }

  /** The output cells in configured columns, left to right. */
  function RowMasks(rules: seq<Rule>, headers: seq<string>, outs: seq<string>): seq<string>
    requires |outs| == |headers|
  {
    if outs == [] then []
    else CellMasks(rules, headers[0], outs[0]) + RowMasks(rules, headers[1..], outs[1..])
  }

  /** The inner loop over a row's cells: every cell is anonymised as its
      header demands. How it drives the masker is RowRuns. */
  function AnonymiseRow(rules: seq<Rule>, headers: seq<string>, cells: seq<string>, m: Masker): (r: (seq<string>, Masker))
    requires Valid(m) && |cells| == |headers|
    ensures Valid(r.1)
    ensures CellsAnonymised(rules, headers, cells, r.0)
    decreases |cells|
  {
    if cells == [] then ([], m)
    else
      var (first, m1) := AnonymiseCell(rules, headers[0], cells[0], m);
      var (rest, m2) := AnonymiseRow(rules, headers[1..], cells[1..], m1);
      RowConsShape(rules, headers, cells, first, rest);
      ([first] + rest, m2)
  }

  /** The inner loop leaves the masker as running the row's requests leaves
      it, and the configured cells hold exactly the masks returned, in order. */
  lemma {:induction false} RowRuns(rules: seq<Rule>, headers: seq<string>, cells: seq<string>, m: Masker)
    requires Valid(m) && |cells| == |headers|
    ensures AnonymiseRow(rules, headers, cells, m).1 == Run(m, RowCalls(rules, headers, cells)).1
    ensures RowMasks(rules, headers, AnonymiseRow(rules, headers, cells, m).0) == Run(m, RowCalls(rules, headers, cells)).0
    decreases |cells|
  {
    if cells != [] {
      var (first, m1) := AnonymiseCell(rules, headers[0], cells[0], m);
      var rest := AnonymiseRow(rules, headers[1..], cells[1..], m1).0;
      RowRuns(rules, headers[1..], cells[1..], m1);
      RowConsCalls(rules, headers, cells, m, first, m1, rest);
    }
  }

  /** One cell: masked (after trimming) when its header is configured, copied
      as it is otherwise. */
  function AnonymiseCell(rules: seq<Rule>, header: string, cell: string, m: Masker): (r: (string, Masker))
    requires Valid(m)
    ensures Valid(r.1)
    ensures CellAnonymised(rules, header, cell, r.0)
    ensures r.1 == Run(m, CellCalls(rules, header, cell)).1
    ensures CellMasks(rules, header, r.0) == Run(m, CellCalls(rules, header, cell)).0
  {
    match HeaderRule(rules, header)
    case Some(rule) =>
      var calls := [Call(Trim(cell), rule.isConsistent)];
      var r := Anonymise(m, Trim(cell), rule.isConsistent);
      assert calls[1..] == [];
      assert Run(r.1, calls[1..]) == ([], r.1);
      r
    case None => (cell, m)
  }

  lemma {:induction false} RowConsShape(rules: seq<Rule>, headers: seq<string>, cells: seq<string>, first: string, rest: seq<string>)
    requires |cells| == |headers| && cells != []
    requires CellAnonymised(rules, headers[0], cells[0], first)
    requires CellsAnonymised(rules, headers[1..], cells[1..], rest)
    ensures CellsAnonymised(rules, headers, cells, [first] + rest)
  {
    var out := [first] + rest;
    forall j | 1 <= j < |cells|
      ensures CellAnonymised(rules, headers[j], cells[j], out[j])
    {
      assert out[j] == rest[j - 1] && cells[j] == cells[1..][j - 1] && headers[j] == headers[1..][j - 1];
    }
  }

  lemma {:induction false} RowConsCalls(rules: seq<Rule>, headers: seq<string>, cells: seq<string>, m: Masker, first: string, m1: Masker, rest: seq<string>)
    requires Valid(m) && |cells| == |headers| && cells != [] && |rest| == |cells| - 1
    requires m1 == Run(m, CellCalls(rules, headers[0], cells[0])).1
    requires CellMasks(rules, headers[0], first) == Run(m, CellCalls(rules, headers[0], cells[0])).0
    requires RowMasks(rules, headers[1..], rest) == Run(m1, RowCalls(rules, headers[1..], cells[1..])).0
    ensures Run(m1, RowCalls(rules, headers[1..], cells[1..])).1 == Run(m, RowCalls(rules, headers, cells)).1
    ensures RowMasks(rules, headers, [first] + rest) == Run(m, RowCalls(rules, headers, cells)).0
  {
    var c0 := CellCalls(rules, headers[0], cells[0]);
    var crest := RowCalls(rules, headers[1..], cells[1..]);
    RunAppend(m, c0, crest);
    var out := [first] + rest;
    assert out[0] == first && out[1..] == rest;
  }

  /** A row is determined by its configured cells: two outputs that copy the
      unconfigured cells of the same input row and carry the same masks are
      the same row. */
  lemma {:induction false} RowDeterminedByMasks(rules: seq<Rule>, headers: seq<string>, cells: seq<string>, o1: seq<string>, o2: seq<string>)
    requires |cells| == |headers| && |o1| == |cells| && |o2| == |cells|
    requires forall j :: 0 <= j < |cells| && HeaderRule(rules, headers[j]).None? ==> o1[j] == cells[j]
    requires forall j :: 0 <= j < |cells| && HeaderRule(rules, headers[j]).None? ==> o2[j] == cells[j]
    requires RowMasks(rules, headers, o1) == RowMasks(rules, headers, o2)
    ensures o1 == o2
    decreases |cells|
  {
    if cells != [] {
      var k1, k2 := CellMasks(rules, headers[0], o1[0]), CellMasks(rules, headers[0], o2[0]);
      var t1, t2 := RowMasks(rules, headers[1..], o1[1..]), RowMasks(rules, headers[1..], o2[1..]);
      PrefixesAgree(k1, t1, k2, t2);
      assert o1[0] == o2[0];
      forall j | 0 <= j < |cells| - 1 && HeaderRule(rules, headers[1..][j]).None?
        ensures o1[1..][j] == cells[1..][j] && o2[1..][j] == cells[1..][j]
      {
        assert headers[1..][j] == headers[j + 1];
      }
      RowDeterminedByMasks(rules, headers[1..], cells[1..], o1[1..], o2[1..]);
      assert o1 == [o1[0]] + o1[1..] && o2 == [o2[0]] + o2[1..];
    }
  }

  // ---------------------------------------------------------------------------
  // The data rows

  /** Row k of lines has as many cells as the header. */
  predicate RowFits(lines: seq<string>, headers: seq<string>, k: nat)
    requires k < |lines|
  {
    |Cells(lines[k])| == |headers|
  }

  /** The first data row, from row i on, whose cell count differs from the
      header's. */
  function FirstMisfit(lines: seq<string>, headers: seq<string>, i: nat): (r: Option<nat>)
    requires i <= |lines|
    ensures r.None? <==> forall k :: i <= k < |lines| ==> RowFits(lines, headers, k)
    ensures r.Some? ==> i <= r.value < |lines| && !RowFits(lines, headers, r.value)
                        && forall k :: i <= k < r.value ==> RowFits(lines, headers, k)
    decreases |lines| - i
  {
    if i == |lines| then None
    else if !RowFits(lines, headers, i) then Some(i)
    else FirstMisfit(lines, headers, i + 1)
  }

  /** The error for row k when it does not fit: the row one-based, its cell
      count and the header's. */
  function MismatchAt(lines: seq<string>, headers: seq<string>, k: nat): Error
    requires k < |lines|
  {
    CsvColumnMismatch(k + 1, |Cells(lines[k])|, |headers|)
  }

  /** The masker requests rows i.. make: the walk stops at the first row that
      does not fit. */
  function RowsCalls(rules: seq<Rule>, lines: seq<string>, headers: seq<string>, i: nat): seq<Call>
    requires i <= |lines|
    decreases |lines| - i
  {
    if i == |lines| || !RowFits(lines, headers, i) then []
    else RowCalls(rules, headers, Cells(lines[i])) + RowsCalls(rules, lines, headers, i + 1)
  }

  /** rows holds, for every line from i on, that line's cells anonymised
      under the header's columns. */
  predicate RowsAnonymised(rules: seq<Rule>, headers: seq<string>, lines: seq<string>, i: nat, rows: seq<seq<string>>) {
    && |rows| == |lines| - i
    && forall k :: i <= k < |lines| ==> CellsAnonymised(rules, headers, Cells(lines[k]), rows[k - i])
  }

  /** The outer loop over data rows i.. : it stops at the first row whose cell
      count differs from the header's (RowsErrors), and otherwise produces the
      anonymised cells of every row (RowsShape). How it drives the masker is
      RowsRuns. */
  function AnonymiseRows(rules: seq<Rule>, lines: seq<string>, headers: seq<string>, i: nat, m: Masker): (r: (Result<seq<seq<string>>>, Masker))
    requires Valid(m) && i <= |lines|
    ensures Valid(r.1)
    decreases |lines| - i
  {
    if i == |lines| then (Ok([]), m)
    else
      var cells := Cells(lines[i]);
      if |cells| != |headers| then (Err(MismatchAt(lines, headers, i)), m)
      else
        var (outs, m1) := AnonymiseRow(rules, headers, cells, m);
        var (rest, m2) := AnonymiseRows(rules, lines, headers, i + 1, m1);
        match rest
        case Err(e) => (Err(e), m2)
        case Ok(rows) => (Ok([outs] + rows), m2)
  }

  /** Either way the masker ends as running the requests of the rows before
      the first misfit leaves it. */
  lemma {:induction false} RowsRuns(rules: seq<Rule>, lines: seq<string>, headers: seq<string>, i: nat, m: Masker)
    requires Valid(m) && i <= |lines|
    ensures AnonymiseRows(rules, lines, headers, i, m).1 == Run(m, RowsCalls(rules, lines, headers, i)).1
    decreases |lines| - i, 1
  {
    if i < |lines| && RowFits(lines, headers, i) {
      RowsRunsFrom(rules, lines, headers, i, m);
    } else {
      RowsRunsStop(rules, lines, headers, i, m);
    }
  }

  /** The inductive step of RowsRuns, at a row that fits. */
  lemma {:induction false} RowsRunsFrom(rules: seq<Rule>, lines: seq<string>, headers: seq<string>, i: nat, m: Masker)
    requires Valid(m) && i < |lines| && RowFits(lines, headers, i)
    ensures AnonymiseRows(rules, lines, headers, i, m).1 == Run(m, RowsCalls(rules, lines, headers, i)).1
    decreases |lines| - i, 0
  {
    var m1 := RowsRunsStep(rules, lines, headers, i, m);
    RowsRuns(rules, lines, headers, i + 1, m1);
  }

  /** Past the last row, or at a row that does not fit, the loop stops with
      the masker untouched and no request is made. */
  lemma {:induction false} RowsRunsStop(rules: seq<Rule>, lines: seq<string>, headers: seq<string>, i: nat, m: Masker)
    requires Valid(m) && i <= |lines|
    requires i < |lines| ==> !RowFits(lines, headers, i)
    ensures AnonymiseRows(rules, lines, headers, i, m).1 == m
    ensures RowsCalls(rules, lines, headers, i) == []
  {
  }

  /** Past a row that fits, the loop drives the masker as the requests do
      from row i on as soon as it does so from row i + 1 on, starting from the
      masker row i leaves. Returns that masker. */
  lemma {:induction false} RowsRunsStep(rules: seq<Rule>, lines: seq<string>, headers: seq<string>, i: nat, m: Masker)
      returns (m1: Masker)
    requires Valid(m) && i < |lines| && RowFits(lines, headers, i)
    ensures Valid(m1)
    ensures AnonymiseRows(rules, lines, headers, i + 1, m1).1 == Run(m1, RowsCalls(rules, lines, headers, i + 1)).1 ==>
              AnonymiseRows(rules, lines, headers, i, m).1 == Run(m, RowsCalls(rules, lines, headers, i)).1
  {
    m1 := AnonymiseRow(rules, headers, Cells(lines[i]), m).1;
    RowRuns(rules, headers, Cells(lines[i]), m);
    RowsConsCalls(rules, lines, headers, i, m);
  }

  lemma {:induction false} RowsConsCalls(rules: seq<Rule>, lines: seq<string>, headers: seq<string>, i: nat, m: Masker)
    requires Valid(m) && i < |lines| && RowFits(lines, headers, i)
    ensures Run(Run(m, RowCalls(rules, headers, Cells(lines[i]))).1, RowsCalls(rules, lines, headers, i + 1)).1
            == Run(m, RowsCalls(rules, lines, headers, i)).1
  {
    RunAppend(m, RowCalls(rules, headers, Cells(lines[i])), RowsCalls(rules, lines, headers, i + 1));
  }

  /** One step of the outer loop over a row that fits. */
  lemma {:induction false} RowsUnfold(rules: seq<Rule>, lines: seq<string>, headers: seq<string>, i: nat, m: Masker)
    requires Valid(m) && i < |lines| && RowFits(lines, headers, i)
    ensures var (o, n) := AnonymiseRow(rules, headers, Cells(lines[i]), m);
            var t := AnonymiseRows(rules, lines, headers, i + 1, n).0;
            AnonymiseRows(rules, lines, headers, i, m).0 == if t.Err? then Err(t.error) else Ok([o] + t.value)
  {
  }

  /** The error a walk of rows i.. must report: the first row that does not
      fit, if any. */
  function RowsError(lines: seq<string>, headers: seq<string>, i: nat): Option<Error>
    requires i <= |lines|
  {
    match FirstMisfit(lines, headers, i)
    case None => None
    case Some(k) => Some(MismatchAt(lines, headers, k))
  }

  function ErrorOf<T>(r: Result<T>): Option<Error> {
    if r.Err? then Some(r.error) else None
  }

  /** The loop fails exactly when some row from i on does not fit, and then
      reports the first such row. */
  lemma {:induction false} RowsErrors(rules: seq<Rule>, lines: seq<string>, headers: seq<string>, i: nat, m: Masker)
    requires Valid(m) && i <= |lines|
    ensures ErrorOf(AnonymiseRows(rules, lines, headers, i, m).0) == RowsError(lines, headers, i)
    decreases |lines| - i
  {
    if i < |lines| && RowFits(lines, headers, i) {
      var m1 := RowsErrorStep(rules, lines, headers, i, m);
      RowsErrors(rules, lines, headers, i + 1, m1);
    }
  }

  /** Past a row that fits, the loop reports what it reports from the next
      row on, with the masker that row leaves; so does RowsError. Returns
      that masker. */
  lemma {:induction false} RowsErrorStep(rules: seq<Rule>, lines: seq<string>, headers: seq<string>, i: nat, m: Masker)
      returns (m1: Masker)
    requires Valid(m) && i < |lines| && RowFits(lines, headers, i)
    ensures Valid(m1)
    ensures ErrorOf(AnonymiseRows(rules, lines, headers, i, m).0) == ErrorOf(AnonymiseRows(rules, lines, headers, i + 1, m1).0)
    ensures RowsError(lines, headers, i) == RowsError(lines, headers, i + 1)
  {
    m1 := AnonymiseRow(rules, headers, Cells(lines[i]), m).1;
    RowsUnfold(rules, lines, headers, i, m);
  }

  /** The outer loop at its end, or at a row that does not fit. */
  lemma {:induction false} RowsStop(rules: seq<Rule>, lines: seq<string>, headers: seq<string>, i: nat, m: Masker)
    requires Valid(m) && i <= |lines|
    requires i < |lines| ==> !RowFits(lines, headers, i)
    ensures AnonymiseRows(rules, lines, headers, i, m).0
            == if i == |lines| then Ok([]) else Err(MismatchAt(lines, headers, i))
  {
  }

  /** When the loop succeeds it holds one anonymised row per line from i on. */
  lemma {:induction false} RowsShape(rules: seq<Rule>, lines: seq<string>, headers: seq<string>, i: nat, m: Masker)
    requires Valid(m) && i <= |lines|
    ensures var r := AnonymiseRows(rules, lines, headers, i, m).0;
            r.Ok? ==> RowsAnonymised(rules, headers, lines, i, r.value)
    decreases |lines| - i
  {
    if i < |lines| && RowFits(lines, headers, i) {
      var (out, m1) := AnonymiseRow(rules, headers, Cells(lines[i]), m);
      RowsShape(rules, lines, headers, i + 1, m1);
      RowsUnfold(rules, lines, headers, i, m);
      var rest := AnonymiseRows(rules, lines, headers, i + 1, m1).0;
      if rest.Ok? {
        RowsConsShape(rules, lines, headers, i, out, rest.value);
      }
    } else {
      RowsStop(rules, lines, headers, i, m);
    }
  }

  lemma {:induction false} RowsConsShape(rules: seq<Rule>, lines: seq<string>, headers: seq<string>, i: nat, out: seq<string>, rows: seq<seq<string>>)
    requires i < |lines| && CellsAnonymised(rules, headers, Cells(lines[i]), out)
    requires RowsAnonymised(rules, headers, lines, i + 1, rows)
    ensures RowsAnonymised(rules, headers, lines, i, [out] + rows)
  {
    forall k | i < k < |lines|
      ensures CellsAnonymised(rules, headers, Cells(lines[k]), ([out] + rows)[k - i])
    {
      assert ([out] + rows)[k - i] == rows[k - (i + 1)];
    }
  }

  // ---------------------------------------------------------------------------
  // Re-joining

  /** out is what the walker must emit for line: as many comma-separated cells
      as the header, each anonymised as its header demands. */
  predicate RowAnonymised(rules: seq<Rule>, headers: seq<string>, line: string, out: string) {
    CellsAnonymised(rules, headers, Cells(line), Cells(out))
  }

  /** A comma cannot appear in a mask of a comma-free value. */
  lemma {:induction false} MaskAvoidsComma(v: string, w: string)
    requires Masks(v, w) && ',' !in v
    ensures ',' !in w
  {
  }

  /** Trimming cannot introduce a character. */
  lemma {:induction false} TrimAvoids(s: string, c: char)
    requires c !in s
    ensures c !in Trim(s)
  {
    TrimIsSlice(s);
    var a, b :| 0 <= a <= b <= |s| && Trim(s) == s[a..b];
  }

  /** Anonymised cells joined back by commas split into the same cells: no
      cell, masked or copied, contains a comma. */
  lemma {:induction false} RowJoinSplits(rules: seq<Rule>, headers: seq<string>, line: string, outs: seq<string>)
    requires CellsAnonymised(rules, headers, Cells(line), outs)
    ensures Cells(Join(Comma, outs)) == outs
    ensures RowAnonymised(rules, headers, line, Join(Comma, outs))
  {
    var cells := Cells(line);
    forall j | 0 <= j < |outs|
      ensures ',' !in outs[j]
    {
      SplitFromAvoidsSeparator(line, ',', []);
      assert ',' !in cells[j];
      assert CellAnonymised(rules, headers[j], cells[j], outs[j]);
      if HeaderRule(rules, headers[j]).Some? {
        TrimAvoids(cells[j], ',');
        MaskAvoidsComma(Trim(cells[j]), outs[j]);
      }
    }
    SplitJoin(outs, ',');
  }

  /** Each row's cells joined by commas. */
  function JoinRows(rows: seq<seq<string>>): seq<string> {
    seq(|rows|, k requires 0 <= k < |rows| => Join(Comma, rows[k]))
  }

  // ---------------------------------------------------------------------------
  // The whole document

  /** outLines is what the walker must emit for lines: the header line as it
      is, then every data row anonymised under the header's columns. */
  predicate LinesAnonymised(rules: seq<Rule>, lines: seq<string>, outLines: seq<string>) {
    && |lines| >= 1
    && |outLines| == |lines|
    && outLines[0] == lines[0]
    && forall k :: 1 <= k < |lines| ==> RowAnonymised(rules, Cells(lines[0]), lines[k], outLines[k])
  }

  /** The masker requests a whole document makes. */
  function CsvCalls(rules: seq<Rule>, content: string, p: Platform): seq<Call> {
    var lines := Lines(content, p);
    if IsBlank(content) || |lines| < 2 then []
    else RowsCalls(rules, lines, Cells(lines[0]), 1)
  }

  /** AnonymiseCsvAsync. Blank content and content with fewer than two
      non-empty lines are refused before the masker is consulted; every other
      document is accepted exactly when all its data rows have the header's
      cell count. The row errors are CsvRowErrors, the output CsvOutput. */
  function AnonymiseCsv(content: string, config: AnonymisationConfig, p: Platform, m: Masker): (r: (Result<string>, Masker))
    requires Valid(m)
    ensures Valid(r.1)
    ensures r.1 == Run(m, CsvCalls(config.propertiesToAnonymise, content, p)).1
    ensures r.0 == Err(CsvEmpty) <==> IsBlank(content)
    ensures r.0 == Err(CsvNoDataRows) <==> !IsBlank(content) && |Lines(content, p)| < 2
    ensures r.0.Ok? <==>
              && !IsBlank(content)
              && |Lines(content, p)| >= 2
              && FirstMisfit(Lines(content, p), Cells(Lines(content, p)[0]), 1).None?
  {
    var rules := config.propertiesToAnonymise;
    if IsBlank(content) then (Err(CsvEmpty), m)
    else
      var lines := Lines(content, p);
      if |lines| < 2 then (Err(CsvNoDataRows), m)
      else
        RowsRuns(rules, lines, Cells(lines[0]), 1, m);
        RowsErrors(rules, lines, Cells(lines[0]), 1, m);
        var (rows, m') := AnonymiseRows(rules, lines, Cells(lines[0]), 1, m);
        match rows
        case Err(e) =>
          assert e.CsvColumnMismatch?;
          (Err(e), m')
        case Ok(outs) => (Ok(Join(NewLine(p), [lines[0]] + JoinRows(outs))), m')
  }

  /** A document with a header and data rows is refused exactly when some data
      row's cell count differs from the header's; the error names the first
      such row, one-based, with its cell count and the header's. */
  lemma {:induction false} CsvRowErrors(content: string, config: AnonymisationConfig, p: Platform, m: Masker)
    requires Valid(m)
    ensures var r := AnonymiseCsv(content, config, p, m).0;
            var lines := Lines(content, p);
            && ((r.Err? && r.error.CsvColumnMismatch?) <==>
                  !IsBlank(content) && |lines| >= 2 && FirstMisfit(lines, Cells(lines[0]), 1).Some?)
            && (r.Err? && r.error.CsvColumnMismatch? ==>
                  r.error == MismatchAt(lines, Cells(lines[0]), FirstMisfit(lines, Cells(lines[0]), 1).value))
  {
    var lines := Lines(content, p);
    if !IsBlank(content) && |lines| >= 2 {
      RowsErrors(config.propertiesToAnonymise, lines, Cells(lines[0]), 1, m);
    }
  }

  /** An accepted document comes back as its header line followed by one
      anonymised row per data line, joined by the platform line separator. */
  lemma {:induction false} CsvOutput(content: string, config: AnonymisationConfig, p: Platform, m: Masker)
    requires Valid(m)
    ensures var r := AnonymiseCsv(content, config, p, m).0;
            r.Ok? ==>
              exists outLines :: LinesAnonymised(config.propertiesToAnonymise, Lines(content, p), outLines)
                                 && r.value == Join(NewLine(p), outLines)
  {
    var rules := config.propertiesToAnonymise;
    var lines := Lines(content, p);
    if AnonymiseCsv(content, config, p, m).0.Ok? {
      var headers := Cells(lines[0]);
      var rows := AnonymiseRows(rules, lines, headers, 1, m).0.value;
      RowsShape(rules, lines, headers, 1, m);
      RowsJoinSplit(rules, lines, rows);
    }
  }

  /** The output cells in configured columns, row after row, left to right. */
  function DocumentMasks(rules: seq<Rule>, headers: seq<string>, rows: seq<seq<string>>): seq<string>
    requires forall k :: 0 <= k < |rows| ==> |rows[k]| == |headers|
  {
    if rows == [] then []
    else RowMasks(rules, headers, rows[0]) + DocumentMasks(rules, headers, rows[1..])
  }

  /** The configured cells of the rows the loop emits are exactly the masks
      that running the rows' requests returns, in document order. */
  lemma {:induction false} RowsMasksRun(rules: seq<Rule>, lines: seq<string>, headers: seq<string>, i: nat, m: Masker)
    requires Valid(m) && i <= |lines|
    ensures var r := AnonymiseRows(rules, lines, headers, i, m).0;
            r.Ok? ==>
              && (forall k :: 0 <= k < |r.value| ==> |r.value[k]| == |headers|)
              && DocumentMasks(rules, headers, r.value) == Run(m, RowsCalls(rules, lines, headers, i)).0
    decreases |lines| - i
  {
    if i < |lines| && RowFits(lines, headers, i) {
      var (o, m1) := AnonymiseRow(rules, headers, Cells(lines[i]), m);
      RowsUnfold(rules, lines, headers, i, m);
      RowsMasksRun(rules, lines, headers, i + 1, m1);
      var t := AnonymiseRows(rules, lines, headers, i + 1, m1).0;
      if t.Ok? {
        RowsMasksStep(rules, lines, headers, i, m, t.value);
      }
    }
  }

  /** One row of RowsMasksRun: the row's masks followed by the masks of the
      rows after it. */
  lemma {:induction false} RowsMasksStep(rules: seq<Rule>, lines: seq<string>, headers: seq<string>, i: nat, m: Masker, rest: seq<seq<string>>)
    requires Valid(m) && i < |lines| && RowFits(lines, headers, i)
    requires forall k :: 0 <= k < |rest| ==> |rest[k]| == |headers|
    requires var m1 := AnonymiseRow(rules, headers, Cells(lines[i]), m).1;
             DocumentMasks(rules, headers, rest) == Run(m1, RowsCalls(rules, lines, headers, i + 1)).0
    ensures var o := AnonymiseRow(rules, headers, Cells(lines[i]), m).0;
            DocumentMasks(rules, headers, [o] + rest) == Run(m, RowsCalls(rules, lines, headers, i)).0
  {
    var o := AnonymiseRow(rules, headers, Cells(lines[i]), m).0;
    var rc := RowCalls(rules, headers, Cells(lines[i]));
    RowRuns(rules, headers, Cells(lines[i]), m);
    RunAppend(m, rc, RowsCalls(rules, lines, headers, i + 1));
    assert ([o] + rest)[1..] == rest;
  }

  /** Across the whole document, the configured cells of an accepted
      document's data rows are exactly the masks that running the document's
      requests returns, in row order and column order; so two equal values in
      consistent columns of different rows carry the same mask. */
  lemma {:induction false} CsvMasks(content: string, config: AnonymisationConfig, p: Platform, m: Masker)
    requires Valid(m)
    ensures var r := AnonymiseCsv(content, config, p, m).0;
            var lines := Lines(content, p);
            var rules := config.propertiesToAnonymise;
            r.Ok? ==>
              && |lines| >= 2
              && exists rows ::
                   && RowsAnonymised(rules, Cells(lines[0]), lines, 1, rows)
                   && (forall k :: 0 <= k < |rows| ==> |rows[k]| == |Cells(lines[0])|)
                   && r.value == Join(NewLine(p), [lines[0]] + JoinRows(rows))
                   && DocumentMasks(rules, Cells(lines[0]), rows) == Run(m, CsvCalls(rules, content, p)).0
  {
    var rules := config.propertiesToAnonymise;
    var lines := Lines(content, p);
    if AnonymiseCsv(content, config, p, m).0.Ok? {
      var headers := Cells(lines[0]);
      var rows := AnonymiseRows(rules, lines, headers, 1, m).0.value;
      RowsShape(rules, lines, headers, 1, m);
      RowsMasksRun(rules, lines, headers, 1, m);
    }
  }

  /** The header line followed by the anonymised rows, each joined by commas,
      is what the walker must emit. */
  lemma {:induction false} RowsJoinSplit(rules: seq<Rule>, lines: seq<string>, rows: seq<seq<string>>)
    requires |lines| >= 1 && RowsAnonymised(rules, Cells(lines[0]), lines, 1, rows)
    ensures LinesAnonymised(rules, lines, [lines[0]] + JoinRows(rows))
  {
    var outLines := [lines[0]] + JoinRows(rows);
    forall k | 1 <= k < |lines|
      ensures RowAnonymised(rules, Cells(lines[0]), lines[k], outLines[k])
    {
      assert outLines[k] == Join(Comma, rows[k - 1]);
      RowJoinSplits(rules, Cells(lines[0]), lines[k], rows[k - 1]);
    }
  }

  // ---------------------------------------------------------------------------
  // Properties of the whole walk

  /** Two valid maskers whose runs of the requests of rows i.. return the
      same masks. */
  ghost predicate RowsMasksAgree(rules: seq<Rule>, lines: seq<string>, headers: seq<string>, i: nat, m1: Masker, m2: Masker) {
    && Valid(m1) && Valid(m2) && i <= |lines|
    && Run(m1, RowsCalls(rules, lines, headers, i)).0 == Run(m2, RowsCalls(rules, lines, headers, i)).0
  }

  /** The rows are determined by the masks the masker hands out: two maskers
      whose runs of the rows' requests return the same masks produce the same
      rows (or the same error). */
  lemma {:induction false} RowsDeterminedByMasks(rules: seq<Rule>, lines: seq<string>, headers: seq<string>, i: nat, m1: Masker, m2: Masker)
    requires RowsMasksAgree(rules, lines, headers, i, m1, m2)
    ensures AnonymiseRows(rules, lines, headers, i, m1).0 == AnonymiseRows(rules, lines, headers, i, m2).0
    decreases |lines| - i, 1
  {
    if i < |lines| && RowFits(lines, headers, i) {
      RowsDeterminedFrom(rules, lines, headers, i, m1, m2);
    } else {
      RowsStopAgree(rules, lines, headers, i, m1, m2);
    }
  }

  /** The inductive step of RowsDeterminedByMasks, at a row that fits. */
  lemma {:induction false} RowsDeterminedFrom(rules: seq<Rule>, lines: seq<string>, headers: seq<string>, i: nat, m1: Masker, m2: Masker)
    requires RowsMasksAgree(rules, lines, headers, i, m1, m2)
    requires i < |lines| && RowFits(lines, headers, i)
    ensures AnonymiseRows(rules, lines, headers, i, m1).0 == AnonymiseRows(rules, lines, headers, i, m2).0
    decreases |lines| - i, 0
  {
    var n1, n2 := RowsAgreeStep(rules, lines, headers, i, m1, m2);
    RowsDeterminedByMasks(rules, lines, headers, i + 1, n1, n2);
  }

  /** Past a row that fits, agreeing maskers leave agreeing maskers, and
      equal results from there on mean equal results from row i. Returns the
      maskers row i leaves. */
  lemma {:induction false} RowsAgreeStep(rules: seq<Rule>, lines: seq<string>, headers: seq<string>, i: nat, m1: Masker, m2: Masker)
      returns (n1: Masker, n2: Masker)
    requires RowsMasksAgree(rules, lines, headers, i, m1, m2)
    requires i < |lines| && RowFits(lines, headers, i)
    ensures RowsMasksAgree(rules, lines, headers, i + 1, n1, n2)
    ensures AnonymiseRows(rules, lines, headers, i + 1, n1).0 == AnonymiseRows(rules, lines, headers, i + 1, n2).0 ==>
              AnonymiseRows(rules, lines, headers, i, m1).0 == AnonymiseRows(rules, lines, headers, i, m2).0
  {
    RowsSplitMasks(rules, lines, headers, i, m1, m2);
    n1 := AnonymiseRow(rules, headers, Cells(lines[i]), m1).1;
    n2 := AnonymiseRow(rules, headers, Cells(lines[i]), m2).1;
    if AnonymiseRows(rules, lines, headers, i + 1, n1).0 == AnonymiseRows(rules, lines, headers, i + 1, n2).0 {
      RowsDeterminedStep(rules, lines, headers, i, m1, m2);
    }
  }

  lemma {:induction false} RowsStopAgree(rules: seq<Rule>, lines: seq<string>, headers: seq<string>, i: nat, m1: Masker, m2: Masker)
    requires Valid(m1) && Valid(m2) && i <= |lines|
    requires i < |lines| ==> !RowFits(lines, headers, i)
    ensures AnonymiseRows(rules, lines, headers, i, m1).0 == AnonymiseRows(rules, lines, headers, i, m2).0
  {
    RowsStop(rules, lines, headers, i, m1);
    RowsStop(rules, lines, headers, i, m2);
  }

  /** Equal masks for rows i.. mean equal masks for row i and, from the
      maskers row i leaves, equal masks for rows i + 1.. . */
  lemma {:induction false} RowsSplitMasks(rules: seq<Rule>, lines: seq<string>, headers: seq<string>, i: nat, m1: Masker, m2: Masker)
    requires RowsMasksAgree(rules, lines, headers, i, m1, m2)
    requires i < |lines| && RowFits(lines, headers, i)
    ensures Run(m1, RowCalls(rules, headers, Cells(lines[i]))).0 == Run(m2, RowCalls(rules, headers, Cells(lines[i]))).0
    ensures RowsMasksAgree(rules, lines, headers, i + 1, AnonymiseRow(rules, headers, Cells(lines[i]), m1).1,
                           AnonymiseRow(rules, headers, Cells(lines[i]), m2).1)
  {
    var cells := Cells(lines[i]);
    RunsAgreeOnParts(m1, m2, RowCalls(rules, headers, cells), RowsCalls(rules, lines, headers, i + 1));
    RowRuns(rules, headers, cells, m1);
    RowRuns(rules, headers, cells, m2);
  }

  lemma {:induction false} RowsDeterminedStep(rules: seq<Rule>, lines: seq<string>, headers: seq<string>, i: nat, m1: Masker, m2: Masker)
    requires Valid(m1) && Valid(m2) && i < |lines| && RowFits(lines, headers, i)
    requires Run(m1, RowCalls(rules, headers, Cells(lines[i]))).0 == Run(m2, RowCalls(rules, headers, Cells(lines[i]))).0
    requires AnonymiseRows(rules, lines, headers, i + 1, AnonymiseRow(rules, headers, Cells(lines[i]), m1).1).0
             == AnonymiseRows(rules, lines, headers, i + 1, AnonymiseRow(rules, headers, Cells(lines[i]), m2).1).0
    ensures AnonymiseRows(rules, lines, headers, i, m1).0 == AnonymiseRows(rules, lines, headers, i, m2).0
  {
    var cells := Cells(lines[i]);
    var (o1, n1) := AnonymiseRow(rules, headers, cells, m1);
    var (o2, n2) := AnonymiseRow(rules, headers, cells, m2);
    RowRuns(rules, headers, cells, m1);
    RowRuns(rules, headers, cells, m2);
    CellsCopied(rules, headers, cells, o1);
    CellsCopied(rules, headers, cells, o2);
    RowDeterminedByMasks(rules, headers, cells, o1, o2);
    RowsUnfold(rules, lines, headers, i, m1);
    RowsUnfold(rules, lines, headers, i, m2);
  }

  /** With every rule consistent, every request a document makes is
      consistent. */
  lemma {:induction false} ConsistentRulesConsistentRowsCalls(rules: seq<Rule>, lines: seq<string>, headers: seq<string>, i: nat)
    requires i <= |lines|
    requires forall j :: 0 <= j < |rules| ==> rules[j].isConsistent
    ensures forall c :: c in RowsCalls(rules, lines, headers, i) ==> c.consistent
    decreases |lines| - i
  {
    if i < |lines| && RowFits(lines, headers, i) {
      ConsistentRulesConsistentRowCalls(rules, headers, Cells(lines[i]));
      ConsistentRulesConsistentRowsCalls(rules, lines, headers, i + 1);
    }
  }

  lemma {:induction false} ConsistentRulesConsistentRowCalls(rules: seq<Rule>, headers: seq<string>, cells: seq<string>)
    requires |cells| == |headers|
    requires forall j :: 0 <= j < |rules| ==> rules[j].isConsistent
    ensures forall c :: c in RowCalls(rules, headers, cells) ==> c.consistent
    decreases |cells|
  {
    if cells != [] {
      ConsistentRulesConsistentRowCalls(rules, headers[1..], cells[1..]);
    }
  }

  /** Anonymising the same document twice with only consistent rules gives the
      same text the second time and leaves the masker as the first pass left
      it: every value is then answered from the cache. */
  lemma {:induction false} RepeatWithConsistentRules(content: string, config: AnonymisationConfig, p: Platform, m: Masker)
    requires Valid(m)
    requires forall j :: 0 <= j < |config.propertiesToAnonymise| ==> config.propertiesToAnonymise[j].isConsistent
    ensures AnonymiseCsv(content, config, p, AnonymiseCsv(content, config, p, m).1) == AnonymiseCsv(content, config, p, m)
  {
    var rules := config.propertiesToAnonymise;
    var lines := Lines(content, p);
    var m1 := AnonymiseCsv(content, config, p, m).1;
    var calls := CsvCalls(rules, content, p);
    if !IsBlank(content) && |lines| >= 2 {
      ConsistentRulesConsistentRowsCalls(rules, lines, Cells(lines[0]), 1);
    }
    assert forall j :: 0 <= j < |calls| ==> calls[j] in calls;
    ReplayConsistentRun(m, calls);
    if !IsBlank(content) && |lines| >= 2 {
      RowsDeterminedByMasks(rules, lines, Cells(lines[0]), 1, m, m1);
    }
  }

  /** A row none of whose columns is configured is emitted exactly as read. */
  lemma {:induction false} UnconfiguredRowUnchanged(rules: seq<Rule>, headers: seq<string>, line: string, out: string)
    requires RowAnonymised(rules, headers, line, out)
    requires forall j :: 0 <= j < |headers| ==> HeaderRule(rules, headers[j]).None?
    ensures out == line
  {
    CellsCopied(rules, headers, Cells(line), Cells(out));
    assert Cells(out) == Cells(line);
    JoinSplit(out, Comma);
    JoinSplit(line, Comma);
  }

  lemma {:induction false} NoRulesNoRowCalls(headers: seq<string>, cells: seq<string>)
    requires |cells| == |headers|
    ensures RowCalls([], headers, cells) == []
    decreases |cells|
  {
    if cells != [] {
      NoRulesNoRowCalls(headers[1..], cells[1..]);
    }
  }

  lemma {:induction false} NoRulesNoRowsCalls(lines: seq<string>, headers: seq<string>, i: nat)
    requires i <= |lines|
    ensures RowsCalls([], lines, headers, i) == []
    decreases |lines| - i
  {
    if i < |lines| && RowFits(lines, headers, i) {
      NoRulesNoRowCalls(headers, Cells(lines[i]));
      NoRulesNoRowsCalls(lines, headers, i + 1);
    }
  }

  /** With no rules the walker never consults the masker, and a document it
      accepts comes back as its non-empty lines joined by the platform line
      separator. */
  lemma {:induction false} NoRulesKeepsLines(content: string, config: AnonymisationConfig, p: Platform, m: Masker)
    requires Valid(m) && config.propertiesToAnonymise == []
    ensures AnonymiseCsv(content, config, p, m).1 == m
    ensures AnonymiseCsv(content, config, p, m).0.Ok? ==>
              AnonymiseCsv(content, config, p, m).0.value == Join(NewLine(p), Lines(content, p))
  {
    var lines := Lines(content, p);
    var r := AnonymiseCsv(content, config, p, m);
    if !IsBlank(content) && |lines| >= 2 {
      NoRulesNoRowsCalls(lines, Cells(lines[0]), 1);
    }
    if r.0.Ok? {
      CsvOutput(content, config, p, m);
      var outLines :| LinesAnonymised([], lines, outLines) && r.0.value == Join(NewLine(p), outLines);
      forall k | 1 <= k < |lines|
        ensures outLines[k] == lines[k]
      {
        UnconfiguredRowUnchanged([], Cells(lines[0]), lines[k], outLines[k]);
      }
      assert outLines == lines;
    }
  }
}

=== FILE: json.dfy ===
/** The JSON walker (JsonAnonymisationStrategy.AnonymiseJsonElement) over an
    already parsed value tree. Objects are rebuilt the way the source rebuilds
    them, in a Dictionary keyed by property name. */
module Json {
  import opened Results
  import opened Config
  import opened Masking

  datatype Member = Member(name: string, value: Value)

  /** A parsed JSON value. Numbers are opaque leaves holding their literal. */
  datatype Value =
    | Object(members: seq<Member>)
    | Array(items: seq<Value>)
    | String(text: string)
    | Number(literal: string)
    | Bool(b: bool)
    | Null

  /** Property names are matched ordinally (case-sensitively). */
  function RuleFor(rules: seq<Rule>, name: string): Option<Rule> {
    Find(rules, Ordinal, name)
  }

  /** A member whose value the walker hands to the masker: a matched name with
      a string value. */
  predicate MaskedDirectly(rules: seq<Rule>, mem: Member) {
    RuleFor(rules, mem.name).Some? && mem.value.String?
  }

  // ---------------------------------------------------------------------------
  // Keys and the Dictionary the source builds objects in

  predicate DistinctNames(ms: seq<Member>) {
    forall i, j :: 0 <= i < j < |ms| ==> ms[i].name != ms[j].name
  }

  /** Every object anywhere in v has pairwise distinct property names. */
  predicate UniqueKeys(v: Value)
    decreases v
  {
    match v
    case Object(ms) => DistinctNames(ms) && forall i :: 0 <= i < |ms| ==> UniqueKeys(ms[i].value)
    case Array(xs) => forall i :: 0 <= i < |xs| ==> UniqueKeys(xs[i])
    case _ => true
  }

  function IndexOfName(d: seq<Member>, name: string): (r: Option<nat>)
    ensures r.Some? ==> r.value < |d| && d[r.value].name == name
    ensures r.None? ==> forall i :: 0 <= i < |d| ==> d[i].name != name
  {
    if d == [] then None
    else if d[|d| - 1].name == name then Some(|d| - 1)
    else IndexOfName(d[..|d| - 1], name)
  }

  /** dictionary[mem.name] = mem.value: overwrite in place, or append. */
  function Put(d: seq<Member>, mem: Member): (r: seq<Member>)
    requires DistinctNames(d)
    ensures DistinctNames(r)
    ensures mem in r
    ensures forall x :: x in r ==> x == mem || (x in d && x.name != mem.name)
    ensures forall x :: x in d && x.name != mem.name ==> x in r
    ensures forall k :: 0 <= k < |d| && d[k].name == mem.name ==> r == d[k := mem]
    ensures (forall k :: 0 <= k < |d| ==> d[k].name != mem.name) ==> r == d + [mem]
  {
    match IndexOfName(d, mem.name)
    case Some(i) =>
      var r := d[i := mem];
      assert r[i] == mem;
      assert forall k :: 0 <= k < |d| && k != i ==> r[k] == d[k];
      r
    case None => d + [mem]
  }

  /** The members a Dictionary holds after assigning each of ms in order. */
  function ToDictionary(ms: seq<Member>): (r: seq<Member>)
    ensures DistinctNames(r)
    ensures forall x :: x in r ==> x in ms
    ensures DistinctNames(ms) ==> r == ms
    decreases |ms|
  {
    if ms == [] then []
    else
      var p := ms[..|ms| - 1];
      var d := ToDictionary(p);
      assert ms == p + [ms[|ms| - 1]];
      assert DistinctNames(ms) ==> DistinctNames(p) && IndexOfName(d, ms[|ms| - 1].name).None?;
      Put(d, ms[|ms| - 1])
  }

  /** Every property name of ms survives in the dictionary. */
  lemma {:induction false} ToDictionaryKeepsNames(ms: seq<Member>)
    ensures forall i :: 0 <= i < |ms| ==> exists x :: x in ToDictionary(ms) && x.name == ms[i].name
    decreases |ms|
  {
    if ms != [] {
      var n := |ms| - 1;
      var p := ms[..n];
      ToDictionaryKeepsNames(p);
      var d := ToDictionary(p);
      var r := ToDictionary(ms);
      assert r == Put(d, ms[n]);
      forall i | 0 <= i < |ms|
        ensures exists x :: x in r && x.name == ms[i].name
      {
        if i == n || ms[i].name == ms[n].name {
          assert ms[n] in r;
        } else {
          assert p[i] == ms[i];
          var x :| x in d && x.name == p[i].name;
          assert x in r;
        }
      }
    }
  }

  /** ms[j] is x and no later member of ms has x's name. */
  predicate LastOccurrence(ms: seq<Member>, j: nat, x: Member)
    requires j < |ms|
  {
    ms[j] == x && forall k :: j < k < |ms| ==> ms[k].name != x.name
  }

  /** A last occurrence in the prefix of ms stays last when the member that
      completes ms has another name. */
  lemma {:induction false} LastOccurrenceExtends(ms: seq<Member>, j: nat, x: Member)
    requires j < |ms| - 1 && LastOccurrence(ms[..|ms| - 1], j, x) && ms[|ms| - 1].name != x.name
    ensures LastOccurrence(ms, j, x)
  {
    assert forall k :: j <= k < |ms| - 1 ==> ms[..|ms| - 1][k] == ms[k];
  }

  /** Each name holds the value of its last occurrence in ms: no member with
      the same name comes after the one the dictionary keeps. */
  lemma {:induction false} ToDictionaryKeepsLast(ms: seq<Member>)
    ensures forall x :: x in ToDictionary(ms) ==> exists j :: 0 <= j < |ms| && LastOccurrence(ms, j, x)
  {
    forall x | x in ToDictionary(ms)
      ensures exists j :: 0 <= j < |ms| && LastOccurrence(ms, j, x)
    {
      KeptIsLast(ms, x);
    }
  }

  lemma {:induction false} KeptIsLast(ms: seq<Member>, x: Member)
    requires x in ToDictionary(ms)
    ensures exists j :: 0 <= j < |ms| && LastOccurrence(ms, j, x)
    decreases |ms|
  {
    var n := |ms| - 1;
    var p := ms[..n];
    assert ToDictionary(ms) == Put(ToDictionary(p), ms[n]);
    if x == ms[n] {
      assert LastOccurrence(ms, n, x);
    } else {
      KeptIsLast(p, x);
      var j :| 0 <= j < |p| && LastOccurrence(p, j, x);
      LastOccurrenceExtends(ms, j, x);
    }
  }

  // ---------------------------------------------------------------------------
  // What the walk does, stated independently of the masker's state

  /** w is what anonymising v must produce: objects keep their property names
      in order, arrays their length, a member matched with a string value gets
      a class-preserving mask, every other member and every array element is
      related recursively, and every other leaf (including strings that are not
      the direct value of a matched member) is unchanged. */
  predicate Anonymised(rules: seq<Rule>, v: Value, w: Value)
    decreases v
  {
    match v
    case Object(ms) =>
      && w.Object?
      && |w.members| == |ms|
      && forall i :: 0 <= i < |ms| ==>
           w.members[i].name == ms[i].name && MemberAnonymised(rules, ms[i], w.members[i].value)
    case Array(xs) =>
      && w.Array?
      && |w.items| == |xs|
      && forall i :: 0 <= i < |xs| ==> Anonymised(rules, xs[i], w.items[i])
    case _ => w == v
  }

  predicate MemberAnonymised(rules: seq<Rule>, mem: Member, w: Value)
    decreases mem
  {
    if MaskedDirectly(rules, mem) then w.String? && Masks(mem.value.text, w.text)
    else Anonymised(rules, mem.value, w)
  }

  /** The masker requests the walk makes, in depth-first document order: one
      per member matched with a string value. */
  function Calls(rules: seq<Rule>, v: Value): seq<Call>
    decreases v, 1
  {
    match v
    case Object(ms) => MemberCalls(rules, ms)
    case Array(xs) => ItemCalls(rules, xs)
    case _ => []
  }

  function MemberCalls(rules: seq<Rule>, ms: seq<Member>): seq<Call>
    decreases ms, 0
  {
    if ms == [] then [] else CallsOfMember(rules, ms[0]) + MemberCalls(rules, ms[1..])
  }

  function CallsOfMember(rules: seq<Rule>, mem: Member): seq<Call>
    decreases mem, 2
  {
    if MaskedDirectly(rules, mem)
    then [Call(mem.value.text, RuleFor(rules, mem.name).value.isConsistent)]
    else Calls(rules, mem.value)
  }

  function ItemCalls(rules: seq<Rule>, xs: seq<Value>): seq<Call>
    decreases xs, 0
  {
    if xs == [] then [] else Calls(rules, xs[0]) + ItemCalls(rules, xs[1..])
  }

  // ---------------------------------------------------------------------------
  // The walk

  /** AnonymiseJsonElement. The masker ends in the state that running the
      walk's requests in document order leaves it in; the output's objects have
      distinct keys; and, when the input's keys are distinct, the output is
      related to the input by Anonymised and its masked strings are exactly
      the masks the masker returned, in order. */
  function Walk(rules: seq<Rule>, v: Value, m: Masker): (r: (Value, Masker))
    requires Valid(m)
    ensures Valid(r.1)
    ensures r.1 == Run(m, Calls(rules, v)).1
    ensures UniqueKeys(r.0)
    ensures UniqueKeys(v) ==> Anonymised(rules, v, r.0)
    ensures UniqueKeys(v) ==> Calls(rules, r.0) == WithValues(Calls(rules, v), Run(m, Calls(rules, v)).0)
    decreases v, 1
  {
    match v
    case Object(ms) =>
      var (ws, m') := WalkMembers(rules, ms, m);
      RebuiltObject(ms, ws);
      (Object(ToDictionary(ws)), m')
    case Array(xs) =>
      var (ys, m') := WalkItems(rules, xs, m);
      (Array(ys), m')
    case _ => (v, m)
  }

  function WalkMembers(rules: seq<Rule>, ms: seq<Member>, m: Masker): (r: (seq<Member>, Masker))
    requires Valid(m)
    ensures Valid(r.1)
    ensures r.1 == Run(m, MemberCalls(rules, ms)).1
    ensures |r.0| == |ms|
    ensures forall i :: 0 <= i < |ms| ==> r.0[i].name == ms[i].name && UniqueKeys(r.0[i].value)
    ensures (forall i :: 0 <= i < |ms| ==> UniqueKeys(ms[i].value)) ==>
              && (forall i :: 0 <= i < |ms| ==> MemberAnonymised(rules, ms[i], r.0[i].value))
              && MemberCalls(rules, r.0) == WithValues(MemberCalls(rules, ms), Run(m, MemberCalls(rules, ms)).0)
    decreases ms, 0
  {
    if ms == [] then ([], m)
    else
      var (first, m1) := WalkMember(rules, ms[0], m);
      var (rest, m2) := WalkMembers(rules, ms[1..], m1);
      RunAppend(m, CallsOfMember(rules, ms[0]), MemberCalls(rules, ms[1..]));
      MembersConsShape(rules, ms, first, rest);
      if UniqueKeys(ms[0].value) && (forall i :: 1 <= i < |ms| ==> UniqueKeys(ms[i].value)) then
        MembersConsCalls(rules, ms, m, first, m1, rest);
        ([first] + rest, m2)
      else
        ([first] + rest, m2)
  }

  /** An object rebuilt from walked members has distinct keys throughout, and
      is the walked members themselves when the input's keys were distinct. */
  lemma {:induction false} RebuiltObject(ms: seq<Member>, ws: seq<Member>)
    requires |ws| == |ms|
    requires forall i :: 0 <= i < |ms| ==> ws[i].name == ms[i].name && UniqueKeys(ws[i].value)
    ensures UniqueKeys(Object(ToDictionary(ws)))
    ensures DistinctNames(ms) ==> ToDictionary(ws) == ws
  {
    var d := ToDictionary(ws);
    forall i | 0 <= i < |d|
      ensures UniqueKeys(d[i].value)
    {
      assert d[i] in ws;
    }
  }

  /** Shape part of the step of WalkMembers. */
  lemma {:induction false} MembersConsShape(rules: seq<Rule>, ms: seq<Member>, first: Member, rest: seq<Member>)
    requires ms != []
    requires first.name == ms[0].name && UniqueKeys(first.value)
    requires UniqueKeys(ms[0].value) ==> MemberAnonymised(rules, ms[0], first.value)
    requires |rest| == |ms| - 1
    requires forall i :: 0 <= i < |rest| ==> rest[i].name == ms[1..][i].name && UniqueKeys(rest[i].value)
    requires (forall i :: 0 <= i < |rest| ==> UniqueKeys(ms[1..][i].value)) ==>
               forall i :: 0 <= i < |rest| ==> MemberAnonymised(rules, ms[1..][i], rest[i].value)
    ensures forall i :: 0 <= i < |ms| ==> ([first] + rest)[i].name == ms[i].name && UniqueKeys(([first] + rest)[i].value)
    ensures (forall i :: 0 <= i < |ms| ==> UniqueKeys(ms[i].value)) ==>
              forall i :: 0 <= i < |ms| ==> MemberAnonymised(rules, ms[i], ([first] + rest)[i].value)
  {
    var out := [first] + rest;
    assert forall i :: 1 <= i < |ms| ==> out[i] == rest[i - 1] && ms[i] == ms[1..][i - 1];
  }

  /** Request part of the step of WalkMembers. */
  lemma {:induction false} MembersConsCalls(rules: seq<Rule>, ms: seq<Member>, m: Masker, first: Member, m1: Masker, rest: seq<Member>)
    requires Valid(m) && ms != []
    requires m1 == Run(m, CallsOfMember(rules, ms[0])).1
    requires CallsOfMember(rules, first) == WithValues(CallsOfMember(rules, ms[0]), Run(m, CallsOfMember(rules, ms[0])).0)
    requires MemberCalls(rules, rest) == WithValues(MemberCalls(rules, ms[1..]), Run(m1, MemberCalls(rules, ms[1..])).0)
    ensures MemberCalls(rules, [first] + rest) == WithValues(MemberCalls(rules, ms), Run(m, MemberCalls(rules, ms)).0)
  {
    var c0 := CallsOfMember(rules, ms[0]);
    var crest := MemberCalls(rules, ms[1..]);
    RunAppend(m, c0, crest);
    var out := [first] + rest;
    assert out[0] == first && out[1..] == rest;
    assert MemberCalls(rules, out) == CallsOfMember(rules, first) + MemberCalls(rules, rest);
    assert MemberCalls(rules, ms) == c0 + crest;
    WithValuesAppend(c0, crest, Run(m, c0).0, Run(m1, crest).0);
  }

  /** One iteration of the loop over an object's properties. */
  function WalkMember(rules: seq<Rule>, mem: Member, m: Masker): (r: (Member, Masker))
    requires Valid(m)
    ensures Valid(r.1)
    ensures r.1 == Run(m, CallsOfMember(rules, mem)).1
    ensures r.0.name == mem.name && UniqueKeys(r.0.value)
    ensures UniqueKeys(mem.value) ==>
              && MemberAnonymised(rules, mem, r.0.value)
              && CallsOfMember(rules, r.0) == WithValues(CallsOfMember(rules, mem), Run(m, CallsOfMember(rules, mem)).0)
    decreases mem, 2
  {
    if MaskedDirectly(rules, mem) then
      var (masked, m1) := Anonymise(m, mem.value.text, RuleFor(rules, mem.name).value.isConsistent);
      (Member(mem.name, String(masked)), m1)
    else
      var (w, m1) := Walk(rules, mem.value, m);
      assert UniqueKeys(mem.value) ==> !MaskedDirectly(rules, Member(mem.name, w));
      (Member(mem.name, w), m1)
  }

  function WalkItems(rules: seq<Rule>, xs: seq<Value>, m: Masker): (r: (seq<Value>, Masker))
    requires Valid(m)
    ensures Valid(r.1)
    ensures r.1 == Run(m, ItemCalls(rules, xs)).1
    ensures |r.0| == |xs|
    ensures forall i :: 0 <= i < |xs| ==> UniqueKeys(r.0[i])
    ensures (forall i :: 0 <= i < |xs| ==> UniqueKeys(xs[i])) ==>
              && (forall i :: 0 <= i < |xs| ==> Anonymised(rules, xs[i], r.0[i]))
              && ItemCalls(rules, r.0) == WithValues(ItemCalls(rules, xs), Run(m, ItemCalls(rules, xs)).0)
    decreases xs, 0
  {
    if xs == [] then ([], m)
    else
      var (first, m1) := Walk(rules, xs[0], m);
      var (rest, m2) := WalkItems(rules, xs[1..], m1);
      RunAppend(m, Calls(rules, xs[0]), ItemCalls(rules, xs[1..]));
      ItemsConsShape(rules, xs, first, rest);
      if UniqueKeys(xs[0]) && (forall i :: 1 <= i < |xs| ==> UniqueKeys(xs[i])) then
        ItemsConsCalls(rules, xs, m, first, m1, rest);
        ([first] + rest, m2)
      else
        ([first] + rest, m2)
  }

  /** Shape part of the step of WalkItems. */
  lemma {:induction false} ItemsConsShape(rules: seq<Rule>, xs: seq<Value>, first: Value, rest: seq<Value>)
    requires xs != []
    requires UniqueKeys(first)
    requires UniqueKeys(xs[0]) ==> Anonymised(rules, xs[0], first)
    requires |rest| == |xs| - 1
    requires forall i :: 0 <= i < |rest| ==> UniqueKeys(rest[i])
    requires (forall i :: 0 <= i < |rest| ==> UniqueKeys(xs[1..][i])) ==>
               forall i :: 0 <= i < |rest| ==> Anonymised(rules, xs[1..][i], rest[i])
    ensures forall i :: 0 <= i < |xs| ==> UniqueKeys(([first] + rest)[i])
    ensures (forall i :: 0 <= i < |xs| ==> UniqueKeys(xs[i])) ==>
              forall i :: 0 <= i < |xs| ==> Anonymised(rules, xs[i], ([first] + rest)[i])
  {
    var out := [first] + rest;
    assert forall i :: 1 <= i < |xs| ==> out[i] == rest[i - 1] && xs[i] == xs[1..][i - 1];
  }

  /** Request part of the step of WalkItems. */
  lemma {:induction false} ItemsConsCalls(rules: seq<Rule>, xs: seq<Value>, m: Masker, first: Value, m1: Masker, rest: seq<Value>)
    requires Valid(m) && xs != []
    requires m1 == Run(m, Calls(rules, xs[0])).1
    requires Calls(rules, first) == WithValues(Calls(rules, xs[0]), Run(m, Calls(rules, xs[0])).0)
    requires ItemCalls(rules, rest) == WithValues(ItemCalls(rules, xs[1..]), Run(m1, ItemCalls(rules, xs[1..])).0)
    ensures ItemCalls(rules, [first] + rest) == WithValues(ItemCalls(rules, xs), Run(m, ItemCalls(rules, xs)).0)
  {
    var c0 := Calls(rules, xs[0]);
    var crest := ItemCalls(rules, xs[1..]);
    RunAppend(m, c0, crest);
    var out := [first] + rest;
    assert out[0] == first && out[1..] == rest;
    assert ItemCalls(rules, out) == Calls(rules, first) + ItemCalls(rules, rest);
    assert ItemCalls(rules, xs) == c0 + crest;
    WithValuesAppend(c0, crest, Run(m, c0).0, Run(m1, crest).0);
  }

  // ---------------------------------------------------------------------------
  // The strategy entry point and properties of the walk

  /** AnonymiseJsonAsync on already parsed content: malformed text fails before
      the masker is touched; otherwise the walk's result. */
  function AnonymiseJson(content: Parsed<Value>, config: AnonymisationConfig, m: Masker): (r: (Result<Value>, Masker))
    requires Valid(m)
    ensures Valid(r.1)
    ensures content.Malformed? ==> r.0 == Err(ParseError) && r.1 == m
    ensures content.Parsed? ==>
              && r.0.Ok?
              && UniqueKeys(r.0.value)
              && r.1 == Run(m, Calls(config.propertiesToAnonymise, content.doc)).1
    ensures content.Parsed? && UniqueKeys(content.doc) ==>
              var rules := config.propertiesToAnonymise;
              && Anonymised(rules, content.doc, r.0.value)
              && Calls(rules, r.0.value) == WithValues(Calls(rules, content.doc), Run(m, Calls(rules, content.doc)).0)
  {
    match content
    case Malformed => (Err(ParseError), m)
    case Parsed(v) =>
      var (w, m') := Walk(config.propertiesToAnonymise, v, m);
      (Ok(w), m')
  }

  /** A document in which the walk finds nothing to mask comes back unchanged:
      in particular every value when no rule matches any property name. */
  lemma {:induction false} NothingMatchedIsIdentity(rules: seq<Rule>, v: Value, w: Value)
    requires Anonymised(rules, v, w)
    requires Calls(rules, v) == []
    ensures w == v
    decreases v, 1
  {
    match v
    case Object(ms) =>
      MembersNothingMatched(rules, ms, w.members);
    case Array(xs) =>
      ItemsNothingMatched(rules, xs, w.items);
    case _ =>
  }

  lemma {:induction false} MembersNothingMatched(rules: seq<Rule>, ms: seq<Member>, ws: seq<Member>)
    requires |ws| == |ms|
    requires forall i :: 0 <= i < |ms| ==> ws[i].name == ms[i].name && MemberAnonymised(rules, ms[i], ws[i].value)
    requires MemberCalls(rules, ms) == []
    ensures ws == ms
    decreases ms, 0
  {
    if ms != [] {
      assert CallsOfMember(rules, ms[0]) == [];
      assert !MaskedDirectly(rules, ms[0]);
      NothingMatchedIsIdentity(rules, ms[0].value, ws[0].value);
      assert forall i :: 1 <= i < |ms| ==> ms[1..][i - 1] == ms[i] && ws[1..][i - 1] == ws[i];
      MembersNothingMatched(rules, ms[1..], ws[1..]);
      assert ws == [ws[0]] + ws[1..] && ms == [ms[0]] + ms[1..];
    }
  }

  lemma {:induction false} ItemsNothingMatched(rules: seq<Rule>, xs: seq<Value>, ws: seq<Value>)
    requires |ws| == |xs|
    requires forall i :: 0 <= i < |xs| ==> Anonymised(rules, xs[i], ws[i])
    requires ItemCalls(rules, xs) == []
    ensures ws == xs
    decreases xs, 0
  {
    if xs != [] {
      NothingMatchedIsIdentity(rules, xs[0], ws[0]);
      assert forall i :: 1 <= i < |xs| ==> xs[1..][i - 1] == xs[i] && ws[1..][i - 1] == ws[i];
      ItemsNothingMatched(rules, xs[1..], ws[1..]);
      assert ws == [ws[0]] + ws[1..] && xs == [xs[0]] + xs[1..];
    }
  }

  /** With no rules at all, nothing is matched. */
  lemma {:induction false} NoRulesNoCalls(v: Value)
    ensures Calls([], v) == []
    decreases v, 1
  {
    match v
    case Object(ms) => NoRulesNoMemberCalls(ms);
    case Array(xs) => NoRulesNoItemCalls(xs);
    case _ =>
  }

  lemma {:induction false} NoRulesNoMemberCalls(ms: seq<Member>)
    ensures MemberCalls([], ms) == []
    decreases ms, 0
  {
    if ms != [] {
      NoRulesNoCalls(ms[0].value);
      NoRulesNoMemberCalls(ms[1..]);
    }
  }

  lemma {:induction false} NoRulesNoItemCalls(xs: seq<Value>)
    ensures ItemCalls([], xs) == []
    decreases xs, 0
  {
    if xs != [] {
      NoRulesNoCalls(xs[0]);
      NoRulesNoItemCalls(xs[1..]);
    }
  }

  /** Anonymising keeps the number of masker requests: the output has a masked
      string at exactly as many positions as the input had matched strings. */
  lemma {:induction false} AnonymisedKeepsCallCount(rules: seq<Rule>, v: Value, w: Value)
    requires Anonymised(rules, v, w)
    ensures |Calls(rules, w)| == |Calls(rules, v)|
    decreases v, 1
  {
    match v
    case Object(ms) => MembersKeepCallCount(rules, ms, w.members);
    case Array(xs) => ItemsKeepCallCount(rules, xs, w.items);
    case _ =>
  }

  lemma {:induction false} MemberKeepsCallCount(rules: seq<Rule>, mem: Member, w: Member)
    requires w.name == mem.name && MemberAnonymised(rules, mem, w.value)
    ensures |CallsOfMember(rules, w)| == |CallsOfMember(rules, mem)|
    decreases mem, 2
  {
    if !MaskedDirectly(rules, mem) {
      AnonymisedKeepsCallCount(rules, mem.value, w.value);
    }
  }

  lemma {:induction false} MembersKeepCallCount(rules: seq<Rule>, ms: seq<Member>, ws: seq<Member>)
    requires |ws| == |ms|
    requires forall i :: 0 <= i < |ms| ==> ws[i].name == ms[i].name && MemberAnonymised(rules, ms[i], ws[i].value)
    ensures |MemberCalls(rules, ws)| == |MemberCalls(rules, ms)|
    decreases ms, 0
  {
    if ms != [] {
      MemberKeepsCallCount(rules, ms[0], ws[0]);
      assert forall i :: 1 <= i < |ms| ==> ms[1..][i - 1] == ms[i] && ws[1..][i - 1] == ws[i];
      MembersKeepCallCount(rules, ms[1..], ws[1..]);
    }
  }

  lemma {:induction false} ItemsKeepCallCount(rules: seq<Rule>, xs: seq<Value>, ws: seq<Value>)
    requires |ws| == |xs|
    requires forall i :: 0 <= i < |xs| ==> Anonymised(rules, xs[i], ws[i])
    ensures |ItemCalls(rules, ws)| == |ItemCalls(rules, xs)|
    decreases xs, 0
  {
    if xs != [] {
      AnonymisedKeepsCallCount(rules, xs[0], ws[0]);
      assert forall i :: 1 <= i < |xs| ==> xs[1..][i - 1] == xs[i] && ws[1..][i - 1] == ws[i];
      ItemsKeepCallCount(rules, xs[1..], ws[1..]);
    }
  }

  /** An anonymised document is determined by the masks at its matched
      positions: two outputs for the same input that carry the same masks are
      the same document. */
  lemma {:induction false} DeterminedByMasks(rules: seq<Rule>, v: Value, w1: Value, w2: Value)
    requires Anonymised(rules, v, w1) && Anonymised(rules, v, w2)
    requires Calls(rules, w1) == Calls(rules, w2)
    ensures w1 == w2
    decreases v, 1
  {
    match v
    case Object(ms) => MembersDeterminedByMasks(rules, ms, w1.members, w2.members);
    case Array(xs) => ItemsDeterminedByMasks(rules, xs, w1.items, w2.items);
    case _ =>
  }

  lemma {:induction false} MembersDeterminedByMasks(rules: seq<Rule>, ms: seq<Member>, ws1: seq<Member>, ws2: seq<Member>)
    requires |ws1| == |ms| && |ws2| == |ms|
    requires forall i :: 0 <= i < |ms| ==> ws1[i].name == ms[i].name && MemberAnonymised(rules, ms[i], ws1[i].value)
    requires forall i :: 0 <= i < |ms| ==> ws2[i].name == ms[i].name && MemberAnonymised(rules, ms[i], ws2[i].value)
    requires MemberCalls(rules, ws1) == MemberCalls(rules, ws2)
    ensures ws1 == ws2
    decreases ms, 0
  {
    if ms != [] {
      MemberKeepsCallCount(rules, ms[0], ws1[0]);
      MemberKeepsCallCount(rules, ms[0], ws2[0]);
      var c1 := CallsOfMember(rules, ws1[0]);
      var c2 := CallsOfMember(rules, ws2[0]);
      assert c1 + MemberCalls(rules, ws1[1..]) == c2 + MemberCalls(rules, ws2[1..]);
      assert c1 == c2 && MemberCalls(rules, ws1[1..]) == MemberCalls(rules, ws2[1..]) by {
        assert |c1| == |c2|;
        assert c1 == (c1 + MemberCalls(rules, ws1[1..]))[..|c1|];
        assert c2 == (c2 + MemberCalls(rules, ws2[1..]))[..|c2|];
        assert MemberCalls(rules, ws1[1..]) == (c1 + MemberCalls(rules, ws1[1..]))[|c1|..];
        assert MemberCalls(rules, ws2[1..]) == (c2 + MemberCalls(rules, ws2[1..]))[|c2|..];
      }
      if MaskedDirectly(rules, ms[0]) {
        assert ws1[0].value == String(c1[0].value);
        assert ws2[0].value == String(c2[0].value);
      } else {
        DeterminedByMasks(rules, ms[0].value, ws1[0].value, ws2[0].value);
      }
      assert forall i :: 1 <= i < |ms| ==> ms[1..][i - 1] == ms[i] && ws1[1..][i - 1] == ws1[i] && ws2[1..][i - 1] == ws2[i];
      MembersDeterminedByMasks(rules, ms[1..], ws1[1..], ws2[1..]);
      assert ws1 == [ws1[0]] + ws1[1..] && ws2 == [ws2[0]] + ws2[1..];
    }
  }

  lemma {:induction false} ItemsDeterminedByMasks(rules: seq<Rule>, xs: seq<Value>, ws1: seq<Value>, ws2: seq<Value>)
    requires |ws1| == |xs| && |ws2| == |xs|
    requires forall i :: 0 <= i < |xs| ==> Anonymised(rules, xs[i], ws1[i]) && Anonymised(rules, xs[i], ws2[i])
    requires ItemCalls(rules, ws1) == ItemCalls(rules, ws2)
    ensures ws1 == ws2
    decreases xs, 0
  {
    if xs != [] {
      AnonymisedKeepsCallCount(rules, xs[0], ws1[0]);
      AnonymisedKeepsCallCount(rules, xs[0], ws2[0]);
      var c1 := Calls(rules, ws1[0]);
      var c2 := Calls(rules, ws2[0]);
      assert c1 + ItemCalls(rules, ws1[1..]) == c2 + ItemCalls(rules, ws2[1..]);
      assert c1 == c2 && ItemCalls(rules, ws1[1..]) == ItemCalls(rules, ws2[1..]) by {
        assert c1 == (c1 + ItemCalls(rules, ws1[1..]))[..|c1|];
        assert c2 == (c2 + ItemCalls(rules, ws2[1..]))[..|c2|];
        assert ItemCalls(rules, ws1[1..]) == (c1 + ItemCalls(rules, ws1[1..]))[|c1|..];
        assert ItemCalls(rules, ws2[1..]) == (c2 + ItemCalls(rules, ws2[1..]))[|c2|..];
      }
      DeterminedByMasks(rules, xs[0], ws1[0], ws2[0]);
      assert forall i :: 1 <= i < |xs| ==> xs[1..][i - 1] == xs[i] && ws1[1..][i - 1] == ws1[i] && ws2[1..][i - 1] == ws2[i];
      ItemsDeterminedByMasks(rules, xs[1..], ws1[1..], ws2[1..]);
      assert ws1 == [ws1[0]] + ws1[1..] && ws2 == [ws2[0]] + ws2[1..];
    }
  }

  /** The walk is fixed by the masks it is handed: two valid maskers whose
      runs of the document's requests return the same masks produce the same
      document, whether or not its keys are distinct. */
  lemma {:induction false} WalkFixed(rules: seq<Rule>, v: Value, m1: Masker, m2: Masker)
    requires Valid(m1) && Valid(m2)
    requires Run(m1, Calls(rules, v)).0 == Run(m2, Calls(rules, v)).0
    ensures Walk(rules, v, m1).0 == Walk(rules, v, m2).0
    decreases v, 1
  {
    match v
    case Object(ms) => MembersFixed(rules, ms, m1, m2);
    case Array(xs) => ItemsFixed(rules, xs, m1, m2);
    case _ =>
  }

  lemma {:induction false} MemberFixed(rules: seq<Rule>, mem: Member, m1: Masker, m2: Masker)
    requires Valid(m1) && Valid(m2)
    requires Run(m1, CallsOfMember(rules, mem)).0 == Run(m2, CallsOfMember(rules, mem)).0
    ensures WalkMember(rules, mem, m1).0 == WalkMember(rules, mem, m2).0
    decreases mem, 2
  {
    if !MaskedDirectly(rules, mem) {
      WalkFixed(rules, mem.value, m1, m2);
    }
  }

  lemma {:induction false} MembersFixed(rules: seq<Rule>, ms: seq<Member>, m1: Masker, m2: Masker)
    requires Valid(m1) && Valid(m2)
    requires Run(m1, MemberCalls(rules, ms)).0 == Run(m2, MemberCalls(rules, ms)).0
    ensures WalkMembers(rules, ms, m1).0 == WalkMembers(rules, ms, m2).0
    decreases ms, 0
  {
    if ms != [] {
      var c0 := CallsOfMember(rules, ms[0]);
      RunsAgreeOnParts(m1, m2, c0, MemberCalls(rules, ms[1..]));
      MemberFixed(rules, ms[0], m1, m2);
      MembersFixed(rules, ms[1..], Run(m1, c0).1, Run(m2, c0).1);
    }
  }

  lemma {:induction false} ItemsFixed(rules: seq<Rule>, xs: seq<Value>, m1: Masker, m2: Masker)
    requires Valid(m1) && Valid(m2)
    requires Run(m1, ItemCalls(rules, xs)).0 == Run(m2, ItemCalls(rules, xs)).0
    ensures WalkItems(rules, xs, m1).0 == WalkItems(rules, xs, m2).0
    decreases xs, 0
  {
    if xs != [] {
      var c0 := Calls(rules, xs[0]);
      RunsAgreeOnParts(m1, m2, c0, ItemCalls(rules, xs[1..]));
      WalkFixed(rules, xs[0], m1, m2);
      ItemsFixed(rules, xs[1..], Run(m1, c0).1, Run(m2, c0).1);
    }
  }

  predicate AllConsistent(calls: seq<Call>) {
    forall i :: 0 <= i < |calls| ==> calls[i].consistent
  }

  /** When every rule is consistent, every request the walk makes is. */
  lemma {:induction false} ConsistentRulesConsistentCalls(rules: seq<Rule>, v: Value)
    requires forall i :: 0 <= i < |rules| ==> rules[i].isConsistent
    ensures AllConsistent(Calls(rules, v))
    decreases v, 1
  {
    match v
    case Object(ms) => ConsistentRulesConsistentMemberCalls(rules, ms);
    case Array(xs) => ConsistentRulesConsistentItemCalls(rules, xs);
    case _ =>
  }

  lemma {:induction false} ConsistentRulesConsistentMemberCalls(rules: seq<Rule>, ms: seq<Member>)
    requires forall i :: 0 <= i < |rules| ==> rules[i].isConsistent
    ensures AllConsistent(MemberCalls(rules, ms))
    decreases ms, 0
  {
    if ms != [] {
      if !MaskedDirectly(rules, ms[0]) {
        ConsistentRulesConsistentCalls(rules, ms[0].value);
      }
      ConsistentRulesConsistentMemberCalls(rules, ms[1..]);
    }
  }

  lemma {:induction false} ConsistentRulesConsistentItemCalls(rules: seq<Rule>, xs: seq<Value>)
    requires forall i :: 0 <= i < |rules| ==> rules[i].isConsistent
    ensures AllConsistent(ItemCalls(rules, xs))
    decreases xs, 0
  {
    if xs != [] {
      ConsistentRulesConsistentCalls(rules, xs[0]);
      ConsistentRulesConsistentItemCalls(rules, xs[1..]);
    }
  }

  /** Consistency across requests: when every rule is consistent, anonymising
      the same document a second time on the same masker yields the same
      document and leaves the masker as the first call left it, repeated keys
      included. */
  lemma {:induction false} RepeatWithConsistentRules(rules: seq<Rule>, v: Value, m: Masker)
    requires Valid(m)
    requires forall i :: 0 <= i < |rules| ==> rules[i].isConsistent
    ensures Walk(rules, v, Walk(rules, v, m).1) == Walk(rules, v, m)
  {
    var m1 := Walk(rules, v, m).1;
    ConsistentRulesConsistentCalls(rules, v);
    ReplayConsistentRun(m, Calls(rules, v));
    WalkFixed(rules, v, m1, m);
  }

  /** Mixed rules: walking the same document a second time on the masker the
      first walk left returns, at every masked position whose rule is
      consistent, the value the first walk returned there. Positions under
      non-consistent rules are masked afresh. */
  lemma {:induction false} RepeatKeepsConsistentValues(rules: seq<Rule>, v: Value, m: Masker)
    requires Valid(m) && UniqueKeys(v)
    ensures var first := Walk(rules, v, m);
            var second := Walk(rules, v, first.1);
            var c := Calls(rules, v);
            && |Calls(rules, first.0)| == |c|
            && |Calls(rules, second.0)| == |c|
            && forall i :: 0 <= i < |c| && c[i].consistent ==> Calls(rules, second.0)[i] == Calls(rules, first.0)[i]
  {
    RepeatRunKeepsConsistentMasks(m, Calls(rules, v));
  }
}

=== FILE: masking.dfy ===
/** The value masker (MaskingAnonymisationStrategy): a consistency cache from
    original values to their masks, and a seeded pseudo-random draw stream that
    both the consistent and the non-consistent modes consume. The object's
    mutable state is threaded explicitly as a Masker value. */
module Masking {
  import opened Chars

  /** int.MaxValue, the modulus of System.Random's internal samples. */
  const MBIG: int := 2147483647

  /** One internal sample of System.Random, in [0, int.MaxValue). */
  type Sample = s: int | 0 <= s < MBIG

  /** The draws of one seeded System.Random, position by position. */
  type Stream = nat -> Sample

  /** A draw source: the seeded stream and how many samples it has produced. */
  datatype Rng = Rng(stream: Stream, pos: nat)

  /** Random.Next(n): scale the next sample into [0, n). */
  function Next(rng: Rng, n: nat): (r: (nat, Rng))
    requires 0 < n
    ensures r.0 < n
    ensures r.1.stream == rng.stream && r.1.pos == rng.pos + 1
  {
    var s := rng.stream(rng.pos);
    ScaledBelow(s, n);
    (s * n / MBIG, Rng(rng.stream, rng.pos + 1))
  }

  /** A sample scaled by n and divided by int.MaxValue lies in [0, n). */
  lemma ScaledBelow(s: int, n: int)
    requires 0 <= s < MBIG && 0 < n
    ensures 0 <= s * n / MBIG < n
  {
    MulMonotone(0, s, n);
    MulMonotone(s, MBIG - 1, n);
    var q := s * n / MBIG;
    assert q * MBIG <= s * n;
  }

  lemma {:induction false} MulMonotone(a: int, b: int, n: nat)
    requires a <= b
    ensures a * n <= b * n
  {
    if n > 0 {
      MulMonotone(a, b, n - 1);
      assert a * n == a * (n - 1) + a && b * n == b * (n - 1) + b;
    }
  }

  /** The per-position rule: a letter becomes a lower-case ASCII letter, a digit
      becomes a digit, any other character is kept. */
  predicate CharMasked(c: char, d: char) {
    if IsLetter(c) then 'a' <= d <= 'z'
    else if IsDigit(c) then '0' <= d <= '9'
    else d == c
  }

  /** w is a class-preserving mask of v. */
  predicate Masks(v: string, w: string) {
    |v| == |w| && forall i :: 0 <= i < |v| ==> CharMasked(v[i], w[i])
  }

  /** The number of letters and digits of v: the draws masking v consumes. */
  function Draws(v: string): nat {
    if v == [] then 0
    else Draws(v[..|v| - 1]) + (if IsLetter(v[|v| - 1]) || IsDigit(v[|v| - 1]) then 1 else 0)
  }

  lemma {:induction false} DrawsBound(v: string)
    ensures Draws(v) <= |v|
    ensures Draws(v) == 0 <==> forall i :: 0 <= i < |v| ==> !IsLetter(v[i]) && !IsDigit(v[i])
  {
    if v != [] {
      var p := v[..|v| - 1];
      DrawsBound(p);
      assert forall i :: 0 <= i < |p| ==> p[i] == v[i];
    }
  }

  /** One iteration of GenerateMaskedValue's loop. */
  function MaskChar(c: char, rng: Rng): (r: (char, Rng))
    ensures CharMasked(c, r.0)
    ensures r.1.stream == rng.stream
    ensures r.1.pos == rng.pos + (if IsLetter(c) || IsDigit(c) then 1 else 0)
  {
    if IsLetter(c) then
      var (k, rng') := Next(rng, 26);
      ((('a' as int) + k) as char, rng')
    else if IsDigit(c) then
      var (k, rng') := Next(rng, 10);
      ((('0' as int) + k) as char, rng')
    else
      (c, rng)
  }

  /** GenerateMaskedValue: walk v left to right, drawing once per letter or
      digit. The result masks v and exactly Draws(v) samples are consumed. */
  function Generate(v: string, rng: Rng): (r: (string, Rng))
    ensures Masks(v, r.0)
    ensures r.1.stream == rng.stream
    ensures r.1.pos == rng.pos + Draws(v)
    decreases |v|
  {
    if v == [] then ([], rng)
    else
      var (prefix, rng1) := Generate(v[..|v| - 1], rng);
      var (c, rng2) := MaskChar(v[|v| - 1], rng1);
      (prefix + [c], rng2)
  }

  /** The masker's state. */
  datatype Masker = Masker(cache: map<string, string>, rng: Rng)

  /** The cache only ever holds non-empty originals mapped to masks of them. */
  ghost predicate Valid(m: Masker) {
    forall k :: k in m.cache ==> k != [] && Masks(k, m.cache[k])
  }

  /** c2 keeps every entry of c1. */
  ghost predicate CacheExtends(c1: map<string, string>, c2: map<string, string>) {
    forall k :: k in c1 ==> k in c2 && c2[k] == c1[k]
  }

  /** The constructor: an empty cache and a fresh draw stream. */
  function NewMasker(stream: Stream): (m: Masker)
    ensures Valid(m) && m.cache == map[] && m.rng.pos == 0 && m.rng.stream == stream
  {
    Masker(map[], Rng(stream, 0))
  }

  /** Anonymise(value, isConsistent). */
  function Anonymise(m: Masker, value: string, consistent: bool): (r: (string, Masker))
    requires Valid(m)
    ensures Valid(r.1)
    ensures Masks(value, r.0)
    ensures r.1.rng.stream == m.rng.stream
    ensures CacheExtends(m.cache, r.1.cache)
    // empty input: returned as is, nothing touched
    ensures value == [] ==> r.0 == value && r.1 == m
    // cache hit: the stored mask, nothing touched
    ensures consistent && value in m.cache ==> r.0 == m.cache[value] && r.1 == m
    // cache miss: one fresh mask, stored under the value
    ensures consistent && value != [] && value !in m.cache ==>
              r.1.cache == m.cache[value := r.0] && r.1.rng.pos == m.rng.pos + Draws(value)
    // non-consistent: a fresh mask, the cache neither read nor written
    ensures !consistent && value != [] ==>
              r.1.cache == m.cache && r.1.rng.pos == m.rng.pos + Draws(value)
  {
    if value == [] then (value, m)
    else if consistent then
      if value in m.cache then (m.cache[value], m)
      else
        var (masked, rng') := Generate(value, m.rng);
        (masked, Masker(m.cache[value := masked], rng'))
    else
      var (masked, rng') := Generate(value, m.rng);
      (masked, Masker(m.cache, rng'))
  }

  /** A non-consistent mask depends on the draw stream alone: two maskers with
      the same draw source but different caches produce the same mask. */
  lemma {:induction false} NonConsistentIgnoresCache(m1: Masker, m2: Masker, value: string)
    requires Valid(m1) && Valid(m2) && m1.rng == m2.rng
    ensures Anonymise(m1, value, false).0 == Anonymise(m2, value, false).0
    ensures Anonymise(m1, value, false).1.rng == Anonymise(m2, value, false).1.rng
  {
  }

  /** A masker request as a walker issues it. */
  datatype Call = Call(value: string, consistent: bool)

  /** A sequence of Anonymise calls on one masker, in order: the masks produced
      and the final state. */
  function Run(m: Masker, calls: seq<Call>): (r: (seq<string>, Masker))
    requires Valid(m)
    ensures Valid(r.1)
    ensures |r.0| == |calls|
    ensures r.1.rng.stream == m.rng.stream
    ensures m.rng.pos <= r.1.rng.pos
    ensures CacheExtends(m.cache, r.1.cache)
    decreases |calls|
  {
    if calls == [] then ([], m)
    else
      var (w, m1) := Anonymise(m, calls[0].value, calls[0].consistent);
      var (ws, m2) := Run(m1, calls[1..]);
      ([w] + ws, m2)
  }

  /** Every mask a run returns is a class-preserving mask of its call's value. */
  lemma {:induction false} RunMasks(m: Masker, calls: seq<Call>)
    requires Valid(m)
    ensures forall i :: 0 <= i < |calls| ==> Masks(calls[i].value, Run(m, calls).0[i])
    decreases |calls|
  {
    if calls != [] {
      var m1 := Anonymise(m, calls[0].value, calls[0].consistent).1;
      RunMasks(m1, calls[1..]);
      forall i | 1 <= i < |calls|
        ensures Masks(calls[i].value, Run(m, calls).0[i])
      {
        assert calls[1..][i - 1] == calls[i];
      }
    }
  }

  /** The same requests with the given values in place of the originals. */
  function WithValues(calls: seq<Call>, values: seq<string>): (r: seq<Call>)
    requires |values| == |calls|
    ensures |r| == |calls|
    ensures forall i :: 0 <= i < |calls| ==> r[i] == Call(values[i], calls[i].consistent)
  {
    seq(|calls|, i requires 0 <= i < |calls| => Call(values[i], calls[i].consistent))
  }

  lemma {:induction false} WithValuesAppend(a: seq<Call>, b: seq<Call>, x: seq<string>, y: seq<string>)
    requires |x| == |a| && |y| == |b|
    ensures WithValues(a + b, x + y) == WithValues(a, x) + WithValues(b, y)
  {
  }

  /** Running two call lists back to back is running their concatenation. */
  lemma {:induction false} RunAppend(m: Masker, a: seq<Call>, b: seq<Call>)
    requires Valid(m)
    ensures Run(m, a + b).0 == Run(m, a).0 + Run(Run(m, a).1, b).0
    ensures Run(m, a + b).1 == Run(Run(m, a).1, b).1
    decreases |a|
  {
    if a == [] {
      assert a + b == b;
    } else {
      assert (a + b)[0] == a[0];
      assert (a + b)[1..] == a[1..] + b;
      var (w, m1) := Anonymise(m, a[0].value, a[0].consistent);
      RunAppend(m1, a[1..], b);
      var (ws, m2) := Run(m1, a[1..]);
      assert Run(m, a) == ([w] + ws, m2);
      assert Run(m, a + b) == ([w] + Run(m1, a[1..] + b).0, Run(m1, a[1..] + b).1);
    }
  }

  /** Two runs of a concatenation that return the same masks return the same
      masks on each part. */
  lemma {:induction false} RunsAgreeOnParts(m1: Masker, m2: Masker, a: seq<Call>, b: seq<Call>)
    requires Valid(m1) && Valid(m2)
    requires Run(m1, a + b).0 == Run(m2, a + b).0
    ensures Run(m1, a).0 == Run(m2, a).0
    ensures Run(Run(m1, a).1, b).0 == Run(Run(m2, a).1, b).0
  {
    var x1, x2 := Run(m1, a), Run(m2, a);
    var y1, y2 := Run(x1.1, b), Run(x2.1, b);
    RunAppend(m1, a, b);
    RunAppend(m2, a, b);
    assert x1.0 + y1.0 == x2.0 + y2.0;
    PrefixesAgree(x1.0, y1.0, x2.0, y2.0);
  }

  /** Two sequences of the same length prefixing equal concatenations are
      equal, and so are their tails. */
  lemma {:induction false} PrefixesAgree<T>(a: seq<T>, b: seq<T>, c: seq<T>, d: seq<T>)
    requires |a| == |c| && a + b == c + d
    ensures a == c && b == d
  {
    assert a == (a + b)[..|a|] && c == (c + d)[..|c|];
    assert b == (a + b)[|a|..] && d == (c + d)[|c|..];
  }

  /** Cache entries are honoured: every consistent call on a value that is
      already cached when the run starts returns the cached mask. */
  lemma {:induction false} RunHonoursCache(m: Masker, calls: seq<Call>)
    requires Valid(m)
    ensures forall i :: 0 <= i < |calls| && calls[i].consistent && calls[i].value in m.cache ==>
              Run(m, calls).0[i] == m.cache[calls[i].value]
    decreases |calls|
  {
    if calls != [] {
      var m1 := Anonymise(m, calls[0].value, calls[0].consistent).1;
      RunHonoursCache(m1, calls[1..]);
      forall i | 1 <= i < |calls| && calls[i].consistent && calls[i].value in m.cache
        ensures Run(m, calls).0[i] == m.cache[calls[i].value]
      {
        assert calls[1..][i - 1] == calls[i];
      }
    }
  }

  /** Consistency: after a run, every non-empty value that was masked in
      consistent mode is cached, and its cached mask is what the run returned
      for it, wherever it occurred. Identical originals in different consistent
      fields therefore receive identical masks. */
  lemma {:induction false} RunConsistentResults(m: Masker, calls: seq<Call>)
    requires Valid(m)
    ensures forall i :: 0 <= i < |calls| && calls[i].consistent && calls[i].value != [] ==>
              calls[i].value in Run(m, calls).1.cache
              && Run(m, calls).0[i] == Run(m, calls).1.cache[calls[i].value]
    decreases |calls|
  {
    if calls != [] {
      var (w, m1) := Anonymise(m, calls[0].value, calls[0].consistent);
      RunConsistentResults(m1, calls[1..]);
      forall i | 1 <= i < |calls| && calls[i].consistent && calls[i].value != []
        ensures calls[i].value in Run(m, calls).1.cache
        ensures Run(m, calls).0[i] == Run(m, calls).1.cache[calls[i].value]
      {
        assert calls[1..][i - 1] == calls[i];
      }
    }
  }

  /** Replaying a run whose calls are all consistent, on the state the run left
      behind, returns the same masks and changes nothing: the repeat request
      is answered entirely from the cache. */
  lemma {:induction false} ReplayConsistentRun(m: Masker, calls: seq<Call>)
    requires Valid(m)
    requires forall i :: 0 <= i < |calls| ==> calls[i].consistent
    ensures Run(Run(m, calls).1, calls) == Run(m, calls)
  {
    var r := Run(m, calls);
    var m1 := r.1;
    RunConsistentResults(m, calls);
    assert forall i :: 0 <= i < |calls| ==> calls[i].value == [] || calls[i].value in m1.cache;
    AllCachedRunIsIdentity(m1, calls);
    var r' := Run(m1, calls);
    assert r'.0 == r.0 by {
      RunHonoursCache(m1, calls);
      RunMasks(m, calls);
      RunMasks(m1, calls);
      forall i | 0 <= i < |calls|
        ensures r'.0[i] == r.0[i]
      {
        if calls[i].value == [] {
          assert |r'.0[i]| == 0 && |r.0[i]| == 0;
        }
      }
    }
  }

  /** Repeating any run on the state it left behind gives every consistent
      request the mask it got the first time; only the non-consistent requests
      draw afresh. */
  lemma {:induction false} RepeatRunKeepsConsistentMasks(m: Masker, calls: seq<Call>)
    requires Valid(m)
    ensures forall i :: 0 <= i < |calls| && calls[i].consistent ==>
              Run(Run(m, calls).1, calls).0[i] == Run(m, calls).0[i]
  {
    var r := Run(m, calls);
    var r' := Run(r.1, calls);
    RunConsistentResults(m, calls);
    RunHonoursCache(r.1, calls);
    RunMasks(m, calls);
    RunMasks(r.1, calls);
    forall i | 0 <= i < |calls| && calls[i].consistent
      ensures r'.0[i] == r.0[i]
    {
      if calls[i].value == [] {
        assert |r'.0[i]| == 0 && |r.0[i]| == 0;
      }
    }
  }

  /** A run of consistent calls on values that are all cached (or empty)
      leaves the masker unchanged. */
  lemma {:induction false} AllCachedRunIsIdentity(m: Masker, calls: seq<Call>)
    requires Valid(m)
    requires forall i :: 0 <= i < |calls| ==> calls[i].consistent && (calls[i].value == [] || calls[i].value in m.cache)
    ensures Run(m, calls).1 == m
  {
    if calls != [] {
      AllCachedRunIsIdentity(m, calls[1..]);
    }
  }
}

=== FILE: parser_result.dfy ===
/** ParserResult<T>: the outcome of a parser strategy. Its constructor is
    private, so every value is made by one of two factories; the two datatype
    constructors below are exactly those two shapes. */
module ParserResults {
  import opened Results

  datatype ParserResult<T> = Succeeded(payload: T) | Failed(message: string) {

    predicate IsSuccess() {
      Succeeded?
    }

    /** ErrorMessage: the empty string on success. */
    function ErrorMessage(): string {
      match this
      case Succeeded(_) => ""
      case Failed(msg) => msg
    }

    /** Data: None stands for default(T), which a failure carries. */
    function Data(): Option<T> {
      match this
      case Succeeded(d) => Some(d)
      case Failed(_) => None
    }
  }

  /** ParserResult<T>.Success(data). */
  function Success<T>(data: T): (r: ParserResult<T>)
    ensures r.IsSuccess()
    ensures r.Data() == Some(data)
    ensures r.ErrorMessage() == ""
  {
    Succeeded(data)
  }

  /** ParserResult<T>.Failure(errorMessage). */
  function Failure<T>(errorMessage: string): (r: ParserResult<T>)
    ensures !r.IsSuccess()
    ensures r.ErrorMessage() == errorMessage
    ensures r.Data() == None
  {
    Failed(errorMessage)
  }

  /** Every result is made by one of the factories, and IsSuccess tells which:
      a successful result is Success of its data, any other is Failure of its
      message. */
  lemma MadeByFactory<T>(r: ParserResult<T>)
    ensures r.IsSuccess() <==> r.Data().Some? && r == Success(r.Data().value)
    ensures !r.IsSuccess() <==> r == Failure(r.ErrorMessage())
  {
  }

  /** A success never carries an error message and a failure never carries
      data. */
  lemma FieldsExclusive<T>(r: ParserResult<T>)
    ensures r.IsSuccess() ==> r.ErrorMessage() == ""
    ensures !r.IsSuccess() ==> r.Data() == None
  {
  }
}

=== FILE: results.dfy ===
/** Option and Result types shared by the walkers and the facade, together with
    the failure kinds the engine raises (the exceptions of the .NET code). */
module Results {

  datatype Option<+T> = None | Some(value: T)

  /** The exceptions of the engine the model covers, one constructor per
      distinct cause. */
  datatype Error =
    | ParseError                                   // the document text is not well formed
    | CsvEmpty                                     // blank CSV content (ArgumentException)
    | CsvNoDataRows                                // fewer than two non-empty lines (ArgumentException)
    | CsvColumnMismatch(row: nat, cells: nat, headers: nat)  // row is 1-based, as in the message
    | XmlNoRoot                                    // no document element (InvalidOperationException)
    | ConfigNull                                   // null configuration (ArgumentNullException)

  /** The outcome of handing document text to the (unmodelled) parser. */
  datatype Parsed<+T> = Parsed(doc: T) | Malformed

  datatype Result<+T> = Ok(value: T) | Err(error: Error)
}

=== FILE: strings.dfy ===
/** The string operations the CSV walker is built from: String.Split with a
    string separator (optionally dropping empty entries) and String.Join. */
module Strings {

  /** Split s at every non-overlapping occurrence of sep, scanning left to
      right; cur is the part of the current piece already scanned. */
  function SplitFrom(s: string, sep: string, cur: string): (r: seq<string>)
    requires |sep| > 0
    ensures |r| >= 1
    decreases |s|
  {
    if s == [] then [cur]
    else if sep <= s then [cur] + SplitFrom(s[|sep|..], sep, [])
    else SplitFrom(s[1..], sep, cur + [s[0]])
  }

  /** s.Split(sep): always at least one piece. */
  function Split(s: string, sep: string): (r: seq<string>)
    requires |sep| > 0
    ensures |r| >= 1
  {
    SplitFrom(s, sep, [])
  }

  /** The summed length of the parts. */
  function TotalLength(parts: seq<string>): nat {
    if parts == [] then 0 else |parts[0]| + TotalLength(parts[1..])
  }

  /** String.Join(sep, parts): no separator before the first part or after
      the last. */
  function Join(sep: string, parts: seq<string>): (r: string)
    ensures parts == [] ==> r == []
    ensures parts != [] ==> |r| == TotalLength(parts) + (|parts| - 1) * |sep| && parts[0] <= r
  {
    if parts == [] then []
    else if |parts| == 1 then parts[0]
    else parts[0] + sep + Join(sep, parts[1..])
  }

  /** StringSplitOptions.RemoveEmptyEntries: the non-empty pieces, in order. */
  function RemoveEmpty(parts: seq<string>): (r: seq<string>)
    ensures forall i :: 0 <= i < |r| ==> r[i] != []
    ensures forall p :: p in r <==> p in parts && p != []
    ensures |r| <= |parts|
    ensures (forall i :: 0 <= i < |parts| ==> parts[i] != []) ==> r == parts
  {
    if parts == [] then []
    else if parts[0] == [] then RemoveEmpty(parts[1..])
    else
      assert forall i :: 0 <= i < |parts| - 1 ==> parts[1..][i] == parts[i + 1];
      [parts[0]] + RemoveEmpty(parts[1..])
  }

  /** Dropping empty pieces works piece by piece and keeps their order: the
      filter of a concatenation is the concatenation of the filters. With the
      identity on pieces that are all non-empty, this fixes the result: a
      single empty piece vanishes, any other piece stays in its place. */
  lemma {:induction false} RemoveEmptyAppend(a: seq<string>, b: seq<string>)
    ensures RemoveEmpty(a + b) == RemoveEmpty(a) + RemoveEmpty(b)
    decreases |a|
  {
    if a == [] {
      assert a + b == b;
    } else {
      assert (a + b)[0] == a[0];
      assert (a + b)[1..] == a[1..] + b;
      RemoveEmptyAppend(a[1..], b);
    }
  }

  /** The single-piece case: an empty piece is dropped, a non-empty one kept. */
  lemma {:induction false} RemoveEmptySingle(p: string)
    ensures RemoveEmpty([p]) == if p == [] then [] else [p]
  {
    assert [p][1..] == [];
  }

  /** Joining the pieces of a split with the same separator gives back the
      original string. */
  lemma {:induction false} JoinSplitFrom(s: string, sep: string, cur: string)
    requires |sep| > 0
    ensures Join(sep, SplitFrom(s, sep, cur)) == cur + s
    decreases |s|
  {
    if s == [] {
    } else if sep <= s {
      JoinSplitFrom(s[|sep|..], sep, []);
      JoinAtSeparator(s, sep, cur);
    } else {
      JoinSplitFrom(s[1..], sep, cur + [s[0]]);
      assert cur + [s[0]] + s[1..] == cur + s;
    }
  }

  /** The step of JoinSplitFrom at a separator: the piece closed there is
      joined back with the same separator. */
  lemma {:induction false} JoinAtSeparator(s: string, sep: string, cur: string)
    requires |sep| > 0 && sep <= s
    requires Join(sep, SplitFrom(s[|sep|..], sep, [])) == s[|sep|..]
    ensures Join(sep, SplitFrom(s, sep, cur)) == cur + s
  {
    var rest := SplitFrom(s[|sep|..], sep, []);
    assert SplitFrom(s, sep, cur) == [cur] + rest;
    assert ([cur] + rest)[1..] == rest;
    assert s == sep + s[|sep|..];
  }

  lemma {:induction false} JoinSplit(s: string, sep: string)
    requires |sep| > 0
    ensures Join(sep, Split(s, sep)) == s
  {
    JoinSplitFrom(s, sep, []);
  }

  /** sep occurs somewhere in p. */
  predicate Contains(p: string, sep: string) {
    exists k :: 0 <= k <= |p| && sep <= p[k..]
  }

  /** Splitting yields pieces free of the separator, whatever its length. */
  lemma {:induction false} SplitAvoidsSeparator(s: string, sep: string)
    requires |sep| > 0
    ensures forall p :: p in Split(s, sep) ==> !Contains(p, sep)
  {
    SplitFromAvoidsSep(s, sep, []);
  }

  /** Scanning from s with cur pending, where no occurrence of sep starts
      inside cur, closes only pieces free of sep. */
  lemma {:induction false} SplitFromAvoidsSep(s: string, sep: string, cur: string)
    requires |sep| > 0
    requires forall j :: 0 <= j < |cur| ==> !(sep <= cur[j..] + s)
    ensures forall p :: p in SplitFrom(s, sep, cur) ==> !Contains(p, sep)
    decreases |s|
  {
    if s == [] {
      ClosedPieceFree(cur, s, sep);
    } else if sep <= s {
      ClosedPieceFree(cur, s, sep);
      SplitFromAvoidsSep(s[|sep|..], sep, []);
    } else {
      var cur' := cur + [s[0]];
      forall j | 0 <= j < |cur'|
        ensures !(sep <= cur'[j..] + s[1..])
      {
        if j < |cur| {
          assert cur'[j..] + s[1..] == cur[j..] + s;
        } else {
          assert cur'[j..] + s[1..] == s;
        }
      }
      SplitFromAvoidsSep(s[1..], sep, cur');
    }
  }

  /** A piece closed before s, with no occurrence of sep starting inside it
      even when read on into s, does not contain sep. */
  lemma {:induction false} ClosedPieceFree(cur: string, s: string, sep: string)
    requires |sep| > 0
    requires forall j :: 0 <= j < |cur| ==> !(sep <= cur[j..] + s)
    ensures !Contains(cur, sep)
  {
  }

  /** Splitting on a single character yields pieces free of that character. */
  lemma {:induction false} SplitFromAvoidsSeparator(s: string, c: char, cur: string)
    requires c !in cur
    ensures forall p :: p in SplitFrom(s, [c], cur) ==> c !in p
    decreases |s|
  {
    if s == [] {
    } else if [c] <= s {
      SplitFromAvoidsSeparator(s[1..], c, []);
    } else {
      assert s[0] != c;
      SplitFromAvoidsSeparator(s[1..], c, cur + [s[0]]);
    }
  }

  /** Scanning a piece free of the separator only extends the current piece. */
  lemma {:induction false} SplitFromSkipsPiece(p: string, t: string, c: char, cur: string)
    requires c !in p
    ensures SplitFrom(p + t, [c], cur) == SplitFrom(t, [c], cur + p)
    decreases |p|
  {
    if p != [] {
      assert (p + t)[0] == p[0] && (p + t)[1..] == p[1..] + t;
      assert !([c] <= p + t);
      SplitFromSkipsPiece(p[1..], t, c, cur + [p[0]]);
      assert cur + [p[0]] + p[1..] == cur + p;
    } else {
      assert p + t == t && cur + p == cur;
    }
  }

  /** Splitting on a single character undoes joining with it, provided no
      part contains the character and there is at least one part. */
  lemma {:induction false} SplitJoin(parts: seq<string>, c: char)
    requires |parts| >= 1
    requires forall i :: 0 <= i < |parts| ==> c !in parts[i]
    ensures Split(Join([c], parts), [c]) == parts
    decreases |parts|
  {
    if |parts| == 1 {
      SplitFromSkipsPiece(parts[0], [], c, []);
      assert parts[0] + [] == parts[0];
    } else {
      var j := Join([c], parts[1..]);
      assert forall i :: 0 <= i < |parts| - 1 ==> parts[1..][i] == parts[i + 1];
      SplitJoin(parts[1..], c);
      assert Join([c], parts) == parts[0] + ([c] + j);
      SplitFromSkipsPiece(parts[0], [c] + j, c, []);
      assert [] + parts[0] == parts[0];
      assert ([c] + j)[|[c]|..] == j;
      assert [c] <= [c] + j;
      assert SplitFrom([c] + j, [c], parts[0]) == [parts[0]] + SplitFrom(j, [c], []);
      assert parts == [parts[0]] + parts[1..];
    }
  }
}

=== FILE: xml.dfy ===
/** The XML walker (XmlAnonymisationStrategy.AnonymiseXmlElement) over an
    already parsed node tree. The source rewrites text nodes in place; here the
    walk returns the rewritten tree. */
module Xml {
  import opened Results
  import opened Config
  import opened Masking

  datatype Attribute = Attribute(name: string, value: string)

  /** The node kinds other than elements and XmlText that may appear in a
      parsed document. */
  datatype OtherKind =
    | Declaration | DocumentType | CData | Comment
    | Whitespace | SignificantWhitespace | ProcessingInstruction | EntityReference

  datatype Node =
    | Element(name: string, attributes: seq<Attribute>, children: seq<Node>)
    | Text(value: string)
    | Other(kind: OtherKind, value: string)

  /** A parsed document: its top-level nodes (declaration, comments, the root
      element, ...). */
  datatype Document = Document(nodes: seq<Node>)

  /** Element names are matched ordinally (case-sensitively). */
  function RuleFor(rules: seq<Rule>, name: string): Option<Rule> {
    Find(rules, Ordinal, name)
  }

  // ---------------------------------------------------------------------------
  // What the walk does, stated independently of the masker's state

  /** A direct child of a matched element: XmlText gets a class-preserving
      mask, every other node (child elements included) stays as it is. */
  predicate TextMasked(c: Node, d: Node) {
    if c.Text? then d.Text? && Masks(c.value, d.value) else d == c
  }

  /** w is what anonymising n must produce. An element keeps its name, its
      attributes and its number of children. In a matched element the direct
      text children are masked and nothing below is entered; in an unmatched
      element text stays and child elements are related recursively. Nodes
      other than elements are unchanged. */
  predicate Anonymised(rules: seq<Rule>, n: Node, w: Node)
    decreases n
  {
    match n
    case Element(name, attrs, cs) =>
      && w.Element?
      && w.name == name
      && w.attributes == attrs
      && |w.children| == |cs|
      && (if RuleFor(rules, name).Some?
          then forall i :: 0 <= i < |cs| ==> TextMasked(cs[i], w.children[i])
          else forall i :: 0 <= i < |cs| ==> Anonymised(rules, cs[i], w.children[i]))
    case _ => w == n
  }

  /** The masker requests the walk makes, in document order. */
  function Calls(rules: seq<Rule>, n: Node): seq<Call>
    decreases n, 1
  {
    match n
    case Element(name, _, cs) =>
      (match RuleFor(rules, name)
       case Some(rule) => TextCalls(cs, rule.isConsistent)
       case None => ChildCalls(rules, cs))
    case _ => []
  }

  /** One request per direct XmlText child. */
  function TextCalls(cs: seq<Node>, consistent: bool): seq<Call> {
    if cs == [] then []
    else (if cs[0].Text? then [Call(cs[0].value, consistent)] else []) + TextCalls(cs[1..], consistent)
  }

  function ChildCalls(rules: seq<Rule>, cs: seq<Node>): seq<Call>
    decreases cs, 0
  {
    if cs == [] then [] else Calls(rules, cs[0]) + ChildCalls(rules, cs[1..])
  }

  // ---------------------------------------------------------------------------
  // The walk

  /** AnonymiseXmlElement. The masker ends in the state that running the
      walk's requests in order leaves it in, the output is related to the input
      by Anonymised, and its masked texts are exactly the masks returned. */
  function Walk(rules: seq<Rule>, n: Node, m: Masker): (r: (Node, Masker))
    requires Valid(m)
    ensures Valid(r.1)
    ensures r.1 == Run(m, Calls(rules, n)).1
    ensures Anonymised(rules, n, r.0)
    ensures Calls(rules, r.0) == WithValues(Calls(rules, n), Run(m, Calls(rules, n)).0)
    decreases n, 1
  {
    match n
    case Element(name, attrs, cs) =>
      (match RuleFor(rules, name)
       case Some(rule) =>
         var (cs', m') := MaskTexts(cs, rule.isConsistent, m);
         (Element(name, attrs, cs'), m')
       case None =>
         var (cs', m') := WalkChildren(rules, cs, m);
         (Element(name, attrs, cs'), m'))
    case _ => (n, m)
  }

  /** The loop over a matched element's children: each XmlText child's value
      is replaced by its mask. */
  function MaskTexts(cs: seq<Node>, consistent: bool, m: Masker): (r: (seq<Node>, Masker))
    requires Valid(m)
    ensures Valid(r.1)
    ensures r.1 == Run(m, TextCalls(cs, consistent)).1
    ensures |r.0| == |cs|
    ensures forall i :: 0 <= i < |cs| ==> TextMasked(cs[i], r.0[i])
    ensures TextCalls(r.0, consistent) == WithValues(TextCalls(cs, consistent), Run(m, TextCalls(cs, consistent)).0)
  {
    if cs == [] then ([], m)
    else
      var (first, m1) :=
        if cs[0].Text? then
          var (masked, m1) := Anonymise(m, cs[0].value, consistent);
          (Text(masked), m1)
        else (cs[0], m);
      var (rest, m2) := MaskTexts(cs[1..], consistent, m1);
      var c0 := if cs[0].Text? then [Call(cs[0].value, consistent)] else [];
      assert m1 == Run(m, c0).1;
      assert (if first.Text? then [Call(first.value, consistent)] else []) == WithValues(c0, Run(m, c0).0);
      TextsConsShape(cs, first, rest);
      TextsConsCalls(cs, consistent, m, first, m1, rest);
      ([first] + rest, m2)
  }

  lemma {:induction false} TextsConsShape(cs: seq<Node>, first: Node, rest: seq<Node>)
    requires cs != [] && TextMasked(cs[0], first)
    requires |rest| == |cs| - 1
    requires forall i :: 0 <= i < |rest| ==> TextMasked(cs[1..][i], rest[i])
    ensures forall i :: 0 <= i < |cs| ==> TextMasked(cs[i], ([first] + rest)[i])
  {
    var out := [first] + rest;
    assert forall i :: 1 <= i < |cs| ==> out[i] == rest[i - 1] && cs[i] == cs[1..][i - 1];
  }

  lemma {:induction false} TextsConsCalls(cs: seq<Node>, consistent: bool, m: Masker, first: Node, m1: Masker, rest: seq<Node>)
    requires Valid(m) && cs != []
    requires m1 == Run(m, if cs[0].Text? then [Call(cs[0].value, consistent)] else []).1
    requires first.Text? == cs[0].Text?
    requires (if first.Text? then [Call(first.value, consistent)] else []) ==
               WithValues(if cs[0].Text? then [Call(cs[0].value, consistent)] else [],
                          Run(m, if cs[0].Text? then [Call(cs[0].value, consistent)] else []).0)
    requires TextCalls(rest, consistent) == WithValues(TextCalls(cs[1..], consistent), Run(m1, TextCalls(cs[1..], consistent)).0)
    ensures Run(Run(m, if cs[0].Text? then [Call(cs[0].value, consistent)] else []).1, TextCalls(cs[1..], consistent)).1
              == Run(m, TextCalls(cs, consistent)).1
    ensures TextCalls([first] + rest, consistent) == WithValues(TextCalls(cs, consistent), Run(m, TextCalls(cs, consistent)).0)
  {
    var c0 := if cs[0].Text? then [Call(cs[0].value, consistent)] else [];
    var crest := TextCalls(cs[1..], consistent);
    RunAppend(m, c0, crest);
    var out := [first] + rest;
    assert out[0] == first && out[1..] == rest;
    assert TextCalls(cs, consistent) == c0 + crest;
    WithValuesAppend(c0, crest, Run(m, c0).0, Run(m1, crest).0);
  }

  /** The loop over an unmatched element's children: child elements are
      walked in document order, every other child is left alone. */
  function WalkChildren(rules: seq<Rule>, cs: seq<Node>, m: Masker): (r: (seq<Node>, Masker))
    requires Valid(m)
    ensures Valid(r.1)
    ensures r.1 == Run(m, ChildCalls(rules, cs)).1
    ensures |r.0| == |cs|
    ensures forall i :: 0 <= i < |cs| ==> Anonymised(rules, cs[i], r.0[i])
    ensures ChildCalls(rules, r.0) == WithValues(ChildCalls(rules, cs), Run(m, ChildCalls(rules, cs)).0)
    decreases cs, 0
  {
    if cs == [] then ([], m)
    else
      var (first, m1) := if cs[0].Element? then Walk(rules, cs[0], m) else (cs[0], m);
      var (rest, m2) := WalkChildren(rules, cs[1..], m1);
      ChildrenConsShape(rules, cs, first, rest);
      ChildrenConsCalls(rules, cs, m, first, m1, rest);
      ([first] + rest, m2)
  }

  lemma {:induction false} ChildrenConsShape(rules: seq<Rule>, cs: seq<Node>, first: Node, rest: seq<Node>)
    requires cs != [] && Anonymised(rules, cs[0], first)
    requires |rest| == |cs| - 1
    requires forall i :: 0 <= i < |rest| ==> Anonymised(rules, cs[1..][i], rest[i])
    ensures forall i :: 0 <= i < |cs| ==> Anonymised(rules, cs[i], ([first] + rest)[i])
  {
    var out := [first] + rest;
    assert forall i :: 1 <= i < |cs| ==> out[i] == rest[i - 1] && cs[i] == cs[1..][i - 1];
  }

  lemma {:induction false} ChildrenConsCalls(rules: seq<Rule>, cs: seq<Node>, m: Masker, first: Node, m1: Masker, rest: seq<Node>)
    requires Valid(m) && cs != []
    requires m1 == Run(m, Calls(rules, cs[0])).1
    requires Calls(rules, first) == WithValues(Calls(rules, cs[0]), Run(m, Calls(rules, cs[0])).0)
    requires ChildCalls(rules, rest) == WithValues(ChildCalls(rules, cs[1..]), Run(m1, ChildCalls(rules, cs[1..])).0)
    ensures Run(m1, ChildCalls(rules, cs[1..])).1 == Run(m, ChildCalls(rules, cs)).1
    ensures ChildCalls(rules, [first] + rest) == WithValues(ChildCalls(rules, cs), Run(m, ChildCalls(rules, cs)).0)
  {
    var c0 := Calls(rules, cs[0]);
    var crest := ChildCalls(rules, cs[1..]);
    RunAppend(m, c0, crest);
    var out := [first] + rest;
    assert out[0] == first && out[1..] == rest;
    assert ChildCalls(rules, cs) == c0 + crest;
    WithValuesAppend(c0, crest, Run(m, c0).0, Run(m1, crest).0);
  }

  // ---------------------------------------------------------------------------
  // The strategy entry point and properties of the walk

  /** XmlDocument.DocumentElement: the first element among the top-level nodes. */
  function DocumentElement(nodes: seq<Node>): (r: Option<nat>)
    ensures r.Some? ==> r.value < |nodes| && nodes[r.value].Element?
                        && forall j :: 0 <= j < r.value ==> !nodes[j].Element?
    ensures r.None? ==> forall j :: 0 <= j < |nodes| ==> !nodes[j].Element?
  {
    if nodes == [] then None
    else if nodes[0].Element? then Some(0)
    else
      match DocumentElement(nodes[1..])
      case Some(i) => Some(i + 1)
      case None => None
  }

  /** AnonymiseXmlAsync on already parsed content: malformed text and a
      document without a root element fail before the masker is touched;
      otherwise the root element is walked and every other top-level node is
      kept. */
  function AnonymiseXml(content: Parsed<Document>, config: AnonymisationConfig, m: Masker): (r: (Result<Document>, Masker))
    requires Valid(m)
    ensures Valid(r.1)
    ensures content.Malformed? ==> r.0 == Err(ParseError) && r.1 == m
    ensures content.Parsed? && DocumentElement(content.doc.nodes).None? ==> r.0 == Err(XmlNoRoot) && r.1 == m
    ensures content.Parsed? && DocumentElement(content.doc.nodes).Some? ==>
              var nodes := content.doc.nodes;
              var root := DocumentElement(nodes).value;
              && r.0.Ok?
              && |r.0.value.nodes| == |nodes|
              && (forall j :: 0 <= j < |nodes| && j != root ==> r.0.value.nodes[j] == nodes[j])
              && Anonymised(config.propertiesToAnonymise, nodes[root], r.0.value.nodes[root])
              && r.1 == Run(m, Calls(config.propertiesToAnonymise, nodes[root])).1
              && Calls(config.propertiesToAnonymise, r.0.value.nodes[root])
                 == WithValues(Calls(config.propertiesToAnonymise, nodes[root]), Run(m, Calls(config.propertiesToAnonymise, nodes[root])).0)
  {
    match content
    case Malformed => (Err(ParseError), m)
    case Parsed(doc) =>
      match DocumentElement(doc.nodes)
      case None => (Err(XmlNoRoot), m)
      case Some(i) =>
        var (root', m') := Walk(config.propertiesToAnonymise, doc.nodes[i], m);
        (Ok(Document(doc.nodes[i := root'])), m')
  }

  /** The node with every text value erased: what the walk must not change. */
  function Skeleton(n: Node): Node
    decreases n
  {
    match n
    case Element(name, attrs, cs) => Element(name, attrs, seq(|cs|, i requires 0 <= i < |cs| => Skeleton(cs[i])))
    case Text(_) => Text([])
    case Other(_, _) => n
  }

  /** Only XmlText values change: element names, attributes, other node kinds
      and the nesting are all preserved. */
  lemma {:induction false} OnlyTextChanges(rules: seq<Rule>, n: Node, w: Node)
    requires Anonymised(rules, n, w)
    ensures Skeleton(w) == Skeleton(n)
    decreases n
  {
    match n
    case Element(name, attrs, cs) =>
      var ws := w.children;
      forall i | 0 <= i < |cs|
        ensures Skeleton(ws[i]) == Skeleton(cs[i])
      {
        if RuleFor(rules, name).Some? {
          assert TextMasked(cs[i], ws[i]);
        } else {
          OnlyTextChanges(rules, cs[i], ws[i]);
        }
      }
    case _ =>
  }

  /** An element the walk makes no request in comes back unchanged: in
      particular every element when no rule matches any element name. */
  lemma {:induction false} NothingMatchedIsIdentity(rules: seq<Rule>, n: Node, w: Node)
    requires Anonymised(rules, n, w)
    requires Calls(rules, n) == []
    ensures w == n
    decreases n, 1
  {
    match n
    case Element(name, attrs, cs) =>
      if RuleFor(rules, name).Some? {
        TextsNothingMatched(cs, w.children, RuleFor(rules, name).value.isConsistent);
      } else {
        ChildrenNothingMatched(rules, cs, w.children);
      }
    case _ =>
  }

  lemma {:induction false} TextsNothingMatched(cs: seq<Node>, ws: seq<Node>, consistent: bool)
    requires |ws| == |cs|
    requires forall i :: 0 <= i < |cs| ==> TextMasked(cs[i], ws[i])
    requires TextCalls(cs, consistent) == []
    ensures ws == cs
  {
    if cs != [] {
      assert !cs[0].Text?;
      assert forall i :: 1 <= i < |cs| ==> cs[1..][i - 1] == cs[i] && ws[1..][i - 1] == ws[i];
      TextsNothingMatched(cs[1..], ws[1..], consistent);
      assert ws == [ws[0]] + ws[1..] && cs == [cs[0]] + cs[1..];
    }
  }

  lemma {:induction false} ChildrenNothingMatched(rules: seq<Rule>, cs: seq<Node>, ws: seq<Node>)
    requires |ws| == |cs|
    requires forall i :: 0 <= i < |cs| ==> Anonymised(rules, cs[i], ws[i])
    requires ChildCalls(rules, cs) == []
    ensures ws == cs
    decreases cs, 0
  {
    if cs != [] {
      NothingMatchedIsIdentity(rules, cs[0], ws[0]);
      assert forall i :: 1 <= i < |cs| ==> cs[1..][i - 1] == cs[i] && ws[1..][i - 1] == ws[i];
      ChildrenNothingMatched(rules, cs[1..], ws[1..]);
      assert ws == [ws[0]] + ws[1..] && cs == [cs[0]] + cs[1..];
    }
  }

  /** A matched element's subtree is not entered: its child elements come back
      identical even when their own names match a rule. */
  lemma {:induction false} MatchedElementKeepsChildElements(rules: seq<Rule>, n: Node, w: Node, i: nat)
    requires n.Element? && RuleFor(rules, n.name).Some?
    requires Anonymised(rules, n, w)
    requires i < |n.children| && n.children[i].Element?
    ensures w.children[i] == n.children[i]
  {
    assert TextMasked(n.children[i], w.children[i]);
  }

  /** An unmatched element's own text children are left alone. */
  lemma {:induction false} UnmatchedElementKeepsText(rules: seq<Rule>, n: Node, w: Node, i: nat)
    requires n.Element? && RuleFor(rules, n.name).None?
    requires Anonymised(rules, n, w)
    requires i < |n.children| && n.children[i].Text?
    ensures w.children[i] == n.children[i]
  {
    assert Anonymised(rules, n.children[i], w.children[i]);
  }
}
